=== FILE: README.md ===
# Magic comments of TeXworks, modelled in Dafny

This project models the engine behind TeXworks' "Edit magic comments" script
(`scripts/magicComments/magicComments.js`). The script manages the `% !TeX key = value`
lines at the top of a TeX document. It handles four directives: `encoding`, `program`,
`root` and `spellcheck`.

- **Reader.** It searches the first 1024 characters of the document with each directive's
  pattern. A match gives the directive its value and the place of its line. A `TS-program`
  line switches TeXShop compatibility on.
- **Directives.** Each directive turns its value into the text shown in the dialog and back.
  It builds the list of candidates the dialog offers. It serialises itself as a comment line.
- **Writer.** It sorts the directives so that those found come first, by position. It then
  rewrites the document one directive at a time:
  - `offset` tracks how far earlier replacements moved the text;
  - `last` tracks where new lines go.

The model is split into these modules:

| file | module | contents |
|---|---|---|
| `strings.dfy` | `Wrappers`, `Strings` | `Option`; `trim`, ASCII case folding, `indexOf`, global replacement, `join` |
| `path.dfy` | `PathUtil` | the `Path` helpers |
| `format.dfy` | `Format` | `String.prototype.format`, `EscapeXml` |
| `pattern.dfy` | `LinePattern` | the line pattern written out as a matcher, and `exec` |
| `directives.dfy` | `Directives` | the `MagicComment` class and the functions that specify its methods |
| `edits.dfy` | `Edits` | the writer's declarative specification and its step-by-step form |
| `session.dfy` | `Session` | the script's state, the reader, the dialog's answers and the writer |

The global `TeXShopCompatibility`, the document text and the `magicComments` array are the
fields of the class `Session.Session`. Each directive is an object of the class
`Directives.MagicComment` that the reader, the dialog and the writer update in place.

The host's answers are passed in as a `Host` value:
- the engine list;
- the dictionary list;
- the open windows;
- the current file's name.

The document is a `string`.

The writer has a declarative partner, `Edits.Rewritten`. It replaces every original line at
once, then puts the new lines right after the last replaced line. `Session.Session.Write`
is proved to produce exactly that text.

## Model

All source paths are in `scripts/magicComments/magicComments.js`; the table gives them in full.

| member | source | states |
|---|---|---|
| Strings.Trim | scripts/magicComments/magicComments.js:43-49 | The result is a middle piece of the input. Only white space is dropped on either side, and the result neither starts nor ends with white space. It is empty exactly when the input is all white space. |
| Strings.TrimOfTrimmed | scripts/magicComments/magicComments.js:43-49 | A string with nothing to trim at either end is left unchanged. |
| Strings.TrimKeepsOneLine | scripts/magicComments/magicComments.js:43-49 | Trimming a one-line string gives a one-line string. |
| Strings.Lower | scripts/magicComments/magicComments.js:128 | `toLowerCase` keeps the length and lowers each ASCII capital; other characters are unchanged. |
| Strings.IndexOf | scripts/magicComments/magicComments.js:238 | `indexOf` gives the first position holding the element, or -1 exactly when the element is absent. |
| Strings.ReplaceAll | scripts/magicComments/magicComments.js:37 | A global `replace` with a plain pattern: the occurrences of the pattern, found left to right without overlap, are each replaced by the replacement text. Its properties are stated by `Strings.ReplaceAllWithoutOccurrence` and `Format.ReplaceOneChar`. |
| Strings.ReplaceAllWithoutOccurrence | scripts/magicComments/magicComments.js:37 | A global replacement leaves a string without the pattern unchanged. |
| Strings.JoinKeeps | scripts/magicComments/magicComments.js:183 | Every character of a `join` comes from a part or from the separator. |
| PathUtil.FileNameWithoutExtension | scripts/magicComments/magicComments.js:61-67 | The result is the group of the leftmost match of `([^\\/]+)\.[^.]+$`: the separator-free run before the last dot, which must have a non-empty tail. It is the path itself exactly when the pattern matches nowhere. |
| PathUtil.ParentFolder | scripts/magicComments/magicComments.js:62-71 | The result is the group of `^(.*[\\/])[^\\/]+\.[^.]+$`: the path up to and including the separator before the file name. It is `"."` exactly when the pattern does not match. |
| PathUtil.Split | scripts/magicComments/magicComments.js:63 | `split(reSplit)`: the pieces between the `/` and `\` separators, empty pieces included. `PathUtil.SplitJoin` proves it inverts joining separator-free pieces. |
| PathUtil.Segments | scripts/magicComments/magicComments.js:75-76 | The split pieces that are neither empty nor `.`, in order. `PathUtil.SegmentsAreNames` states what they are. |
| PathUtil.SplitPiecesHaveNoSeparator | scripts/magicComments/magicComments.js:63 | No piece of a split on `/` or `\` holds a separator. |
| PathUtil.DropKeepsNames | scripts/magicComments/magicComments.js:75-76 | After the filter, every segment is non-empty, is not `.`, and has no separator. |
| PathUtil.SegmentsAreNames | scripts/magicComments/magicComments.js:75-76 | Every segment compared by `getRelativePath` is a proper name. |
| PathUtil.SplitJoin | scripts/magicComments/magicComments.js:63 | Splitting a `/`-joined list of separator-free pieces gives the pieces back. |
| PathUtil.CommonPrefixLengthIs | scripts/magicComments/magicComments.js:77-80 | The counter stops exactly at the length of the longest common prefix of the two segment lists. Both directions are proved. |
| PathUtil.RelativePathOf | scripts/magicComments/magicComments.js:74-86 | The declarative relative path: one `../` per folder segment beyond the common prefix, then the remaining file segments joined by `/`. `PathUtil.RelativePath` is proved to compute it. |
| PathUtil.RelativePath | scripts/magicComments/magicComments.js:74-86 | The `while` loop computes the declarative relative path: one `../` per folder segment beyond the common prefix, then the remaining file segments joined by `/`. |
| PathUtil.RelativePathUsesSlashes | scripts/magicComments/magicComments.js:81-85 | A relative path never contains `\`, whatever separators its inputs use. |
| PathUtil.RelativePathBelowFolder | scripts/magicComments/magicComments.js:81-85 | A file inside the folder is reached without any `../`, by its remaining segments joined with `/`. |
| PathUtil.RelativePathExampleSameFolder | scripts/magicComments/magicComments.js:74-86 | `("/a/b/c.tex", "/a/b/")` gives `"c.tex"`. |
| PathUtil.RelativePathExampleParentFolder | scripts/magicComments/magicComments.js:74-86 | `("/a/x.tex", "/a/b/")` gives `"../x.tex"`. |
| Format.DecimalString | scripts/magicComments/magicComments.js:37 | The placeholder number is written as a non-empty string of decimal digits. |
| Format.FormatString | scripts/magicComments/magicComments.js:33-40 | The loop performs, in argument order, one global replacement of `%i` by the `i`-th argument. |
| Format.FillKey | scripts/magicComments/magicComments.js:93 | Filling `%0` of `"% !TeX %0 = %1\n"` replaces only the key placeholder. |
| Format.FillValue | scripts/magicComments/magicComments.js:93 | Filling `%1` after a key without `%` replaces only the value placeholder. |
| Format.FormatMagicComment | scripts/magicComments/magicComments.js:93 | For every key without `%` and every value, the format gives exactly `"% !TeX " + key + " = " + value + "\n"`. |
| Format.ReplaceOneChar | scripts/magicComments/magicComments.js:54-56 | A global replacement of one character is a character-by-character substitution. |
| Format.EscapeXml | scripts/magicComments/magicComments.js:52-57 | The three global passes, `&` first, then `<`, then `>`. `Format.EscapeXmlPerChar` proves them equal to escaping each character once. |
| Format.EscapeXmlPerChar | scripts/magicComments/magicComments.js:52-57 | The three global passes (`&`, then `<`, then `>`) equal escaping each character once. The `&` inserted by the later passes is never escaped again. |
| Format.EscapedHasNoAngleBrackets | scripts/magicComments/magicComments.js:52-57 | An escaped string holds no `<` and no `>`. |
| LinePattern.SpacesFromRun | scripts/magicComments/magicComments.js:99 | ` *` consumes the whole run of spaces and stops at the first non-space. |
| LinePattern.LineEndFirstTerminator | scripts/magicComments/magicComments.js:99 | `.+` stops at the first of the four line terminators. |
| LinePattern.MatchAt | scripts/magicComments/magicComments.js:99 | The pattern tried at one position: the lead `% *!TEX +`, the key part `(TS-)?<key> *=`, then ` *(.+)\n`. It gives the index, the length up to and including the `\n`, group `(.+)` and whether `(TS-)` took part. Its properties are stated by `MatchAtShape`, `MatchAtShift` and `ReadBackWrittenLine`. |
| LinePattern.MatchAtShape | scripts/magicComments/magicComments.js:99 | A match runs from a `%` to the first line terminator after it, which is a `\n`. That is the rest of a line, which need not start at the line's start, since the pattern has no `^` (`LinePattern.MatchAfterLeadingText`). The capture is non-empty, has no line terminator, and stands right before the `\n`. The `(TS-)` group takes part only in the Program pattern. |
| LinePattern.MatchAfterLeadingText | scripts/magicComments/magicComments.js:99 | On `"x % !TeX root = a\n"` the root pattern matches at position 2, with length 16 and value `a`: text before the `%` does not prevent a match. |
| LinePattern.MatchAtShift | scripts/magicComments/magicComments.js:99 | The match at a position depends only on the text from that position on. It is the match at the start of the rest of the text, moved to that position. |
| LinePattern.FirstWhereIs | scripts/magicComments/magicComments.js:326 | The scan stops at the first position that matches, and finds none when no position does. |
| LinePattern.Exec | scripts/magicComments/magicComments.js:326 | `regex.exec(header)`: the match at the leftmost position where the pattern matches, or none. `ExecIsLeftmost` and `ExecMatchesAtIndex` state this. |
| LinePattern.ExecIsLeftmost | scripts/magicComments/magicComments.js:326 | `exec` finds a match whenever one exists, at or before any matching position. |
| LinePattern.ExecMatchesAtIndex | scripts/magicComments/magicComments.js:326 | What `exec` reports is the match at its own index, and no earlier position matches. |
| LinePattern.ExecShape | scripts/magicComments/magicComments.js:326 | What `exec` reports lies inside the searched text, from a `%` to a `\n`, with a one-line capture. |
| LinePattern.ExecAtStart | scripts/magicComments/magicComments.js:326 | A match at position 0 is the one `exec` reports. |
| LinePattern.MatchedValue | scripts/magicComments/magicComments.js:106 | `match[1].trim()`: the value a directive keeps from a match. `MatchedValueShape` states that it is trimmed and on one line. |
| LinePattern.MatchedValueShape | scripts/magicComments/magicComments.js:106 | The trimmed capture has nothing left to trim and stays on one line. |
| LinePattern.ReadBackWrittenLine | scripts/magicComments/magicComments.js:93-99 | The pattern reads back a written line, with or without `TS-`, whatever follows it. It matches at 0, spans exactly the line, and recovers the value. The `TS-` group is set exactly when `TS-` was written. |
| LinePattern.ReadBackWrittenLineAt | scripts/magicComments/magicComments.js:93-99 | The same at any position: a written line standing at `p`, whatever comes before or after it, is matched at `p`. The match spans exactly the line, carries the value, and sets the `TS-` group exactly when `TS-` was written. |
| Directives.PatternOf | scripts/magicComments/magicComments.js:99 | Each directive searches for its own key, and only `program` accepts the `TS-` prefix (line 201). |
| Directives.Swapped | scripts/magicComments/magicComments.js:182 | TeXShop mode swaps the first two names of a row that has a TeXShop name. The row keeps its length. |
| Directives.RowDisplay | scripts/magicComments/magicComments.js:182-183 | A table row as the dialog shows it: the first name, then the names after the first empty one (or after the first name) in parentheses. `Directives.RowDisplayReadsBack` is its partner. |
| Directives.LastOpenParen | scripts/magicComments/magicComments.js:138 | Finds the last `(` in a range, or reports that there is none. |
| Directives.StripAliases | scripts/magicComments/magicComments.js:137-141 | The Encoding's `FromDisplayValue`. `Directives.StripAliasesIsGreedyMatch` proves it follows the regex `^(.+)\(.+\)\s*$`. |
| Directives.StripAliasesIsGreedyMatch | scripts/magicComments/magicComments.js:137-141 | The Encoding's `FromDisplayValue` is the regex `^(.+)\(.+\)\s*$`. When the regex matches, the value is the trimmed group of the match whose `(` is rightmost. Otherwise the text is kept unchanged. |
| Directives.GreedySplit | scripts/magicComments/magicComments.js:138 | The split chosen is a match of the regex, and no match puts its `(` further right. |
| Directives.StripAliasesOfDisplay | scripts/magicComments/magicComments.js:137-141 | `name (aliases)` gives back `name`. |
| Directives.StripAliasesWithoutParen | scripts/magicComments/magicComments.js:138-139 | Text without `(` is kept unchanged. |
| Directives.RowDisplayReadsBack | scripts/magicComments/magicComments.js:181-184 | Choosing a displayed table row in the dialog stores the row's first name, after the TeXShop swap. An example is `FromDisplayValue("UTF-8 (UTF-8 Unicode, utf-8)") == "UTF-8"`. |
| Directives.Stems | scripts/magicComments/magicComments.js:301 | Maps `getFileNameWithoutExtension` over the dictionary files. |
| Directives.OpenDocumentPaths | scripts/magicComments/magicComments.js:262-268 | The `root` list holds every open window whose object name is `TeXDocument`, in window order, each relative to the current file's folder. |
| Directives.DistinctFiles | scripts/magicComments/magicComments.js:294-300 | The loop keeps each dictionary file at its first occurrence only. |
| Directives.MentionedByAll | scripts/magicComments/magicComments.js:185-193 | The scan over the rows decides whether every row contains the value, ignoring case. |
| Directives.FindMention | scripts/magicComments/magicComments.js:127-135 | The loop returns the first entry containing the value, ignoring case, or else the value itself. |
| Directives.FirstMention | scripts/magicComments/magicComments.js:127-135 | The first entry containing the value, ignoring case, or the value itself. `Directives.FindMention` is proved to compute it. |
| Directives.EncodingList | scripts/magicComments/magicComments.js:175-193 | The formatted table rows, with the raw value put first when it is set and some row does not mention it. `Directives.MagicComment.EncodingCandidates` is proved to compute it, and `Directives.EncodingDisplay` states a consequence. |
| Directives.PrependUnlisted | scripts/magicComments/magicComments.js:236-241 | The value put first when it is set and missing from the list, compared case-sensitively. It is the rule of lines 236-241, 269-271 and 303-305. |
| Directives.Dedup | scripts/magicComments/magicComments.js:294-300 | The dictionary files, each kept at its first occurrence. `DedupDistinct` and `DedupSameNames` state its properties, and `DistinctFiles` is proved to compute it. |
| Directives.DocumentPaths | scripts/magicComments/magicComments.js:262-268 | The open windows whose object name is `TeXDocument`, in window order, each as a path relative to the folder. `OpenDocumentPaths` is proved to compute it. |
| Directives.BaseList | scripts/magicComments/magicComments.js:219-302 | Each kind's list before the value is considered: the table rows, the engines or fallback names, the open documents, or the dictionary stems or fallback names. |
| Directives.CandidateList | scripts/magicComments/magicComments.js:148-307 | `GetList` of each kind: `EncodingList` for Encoding, otherwise the base list with the unlisted value put first. `CandidateListExtendsBase` states its shape. |
| Directives.DisplayValue | scripts/magicComments/magicComments.js:109-135 | `ToDisplayValue`: the first Encoding list entry mentioning the value, or the value for the other kinds. `EncodingDisplay` and `DisplayValueIsOffered` state its properties. |
| Directives.WrittenValue | scripts/magicComments/magicComments.js:117-146 | The value `ToCommentString` writes: the Encoding value taken through display and back (lines 143-146), the root value with `/` for `\` (line 253), the others unchanged. `EncodingWrittenValue` and `RootWritesSlashes` state its properties. |
| Directives.CommentLine | scripts/magicComments/magicComments.js:93-146 | The line `ToCommentString` returns: the format filled with the written key and value. `CommentLineReadsBack` and `CommentLineReadsBackAt` prove the reader reads it back. |
| Directives.MagicComment.constructor | scripts/magicComments/magicComments.js:96-101 | A new directive has its kind's pattern, no value, no `TS-` form and no place. |
| Directives.MagicComment.FromCommentString | scripts/magicComments/magicComments.js:103-107 | The directive takes the match's index, its whole length and the trimmed capture. `program` records whether the `TS-` group took part (lines 203-208); the other kinds leave the flag alone. |
| Directives.MagicComment.EncodingCandidates | scripts/magicComments/magicComments.js:148-195 | The Encoding list is the formatted table rows. The raw value goes first when it is set and some row does not mention it. |
| Directives.MagicComment.GetList | scripts/magicComments/magicComments.js:215-307 | Each kind builds its own list, specified by `CandidateList`: Program's engines or the fallback names, Root's open documents, Spellcheck's de-duplicated dictionary stems or the fallback names. The value is put first when it is set and missing from the list, compared case-sensitively. |
| Directives.MagicComment.ToDisplayValue | scripts/magicComments/magicComments.js:109-135 | Encoding shows the first list entry mentioning the value; the other kinds show the value. |
| Directives.MagicComment.FromDisplayValue | scripts/magicComments/magicComments.js:113-141 | Sets the value from the displayed text (Encoding strips the alias list) and returns it. Nothing else changes. |
| Directives.MagicComment.ToCommentString | scripts/magicComments/magicComments.js:117-146 | Returns the comment line of the directive. Encoding writes back the value it serialised; the other kinds keep their value. Program uses `TS-program` in TeXShop mode (lines 210-213). Root writes `/` for `\` (lines 251-254). |
| Directives.MagicComment.ProvideValue | scripts/magicComments/magicComments.js:256-260 | No chosen file gives no value. A chosen file gives its path relative to the current file's folder, which holds no `\`. |
| Directives.KeysHaveNoPercent | scripts/magicComments/magicComments.js:210-213 | The written keys hold no `%`, so the format cannot substitute into them. |
| Directives.CommentLineReadsBack | scripts/magicComments/magicComments.js:93-119 | The directive's own pattern finds a written line at the start of the header. The match spans exactly the line and carries the written value. The `TS-` group is set exactly for `program` in TeXShop mode. |
| Directives.CommentLineReadsBackAt | scripts/magicComments/magicComments.js:93-119 | A written line standing anywhere in a text is matched there by the directive's own pattern. The match spans exactly the line, carries the written value, and has the `TS-` group set exactly for `program` in TeXShop mode. |
| Directives.PlainValueRoundTrip | scripts/magicComments/magicComments.js:99-119 | `program` and `spellcheck` read back exactly the value they wrote. |
| Directives.RootWritesSlashes | scripts/magicComments/magicComments.js:253 | The `root` value is written without any `\`. |
| Directives.SubstCharRemoves | scripts/magicComments/magicComments.js:253 | Substituting a character by text without it removes it everywhere. |
| Directives.MentionsItself | scripts/magicComments/magicComments.js:130 | A value is found in itself, whatever its case. |
| Directives.EmptyIsMentioned | scripts/magicComments/magicComments.js:187 | Every entry contains the empty value. |
| Directives.EncodingDisplay | scripts/magicComments/magicComments.js:127-135 | The Encoding display is the first row when every row mentions the value (the empty value included), and the raw value otherwise. |
| Directives.EncodingWrittenValue | scripts/magicComments/magicComments.js:143-146 | A value without `(` that some row does not mention is written unchanged. A value every row mentions is written as the first row's name, `UTF-8` or `UTF-8 Unicode`. |
| Directives.DisplayValueIsOffered | scripts/magicComments/magicComments.js:127-135 | The displayed value of a set directive is among the entries its list offers. |
| Directives.CandidateListExtendsBase | scripts/magicComments/magicComments.js:236-241 | A list is its base list, possibly with the value in front. Except for Encoding, a set value is always in the list (the same rule at lines 269-271 and 303-305). |
| Directives.DedupDistinct | scripts/magicComments/magicComments.js:295-300 | No dictionary file occurs twice after de-duplication. |
| Directives.DedupSameNames | scripts/magicComments/magicComments.js:295-300 | De-duplication keeps every file and adds none. |
| Directives.DocumentPathsUseSlashes | scripts/magicComments/magicComments.js:262-268 | Every entry of the `root` list is written with `/` only. |
| Edits.FoundCountIs | scripts/magicComments/magicComments.js:341-347 | The leading found edits are exactly the first `FoundCount`, and the next one, if any, was not found. |
| Edits.Rewritten | scripts/magicComments/magicComments.js:339-366 | The writer's declarative result: every found line replaced at once, then the new lines right after the last replaced line (at the start when none was found). `Session.Session.Write` is proved to produce it. |
| Edits.ReplacedLength | scripts/magicComments/magicComments.js:353 | Replacing the found lines changes the length of the text before their end by exactly `offset`. |
| Edits.ReplacedPrefix | scripts/magicComments/magicComments.js:350-354 | Replacing the first lines of a chain gives the beginning of replacing them all. |
| Edits.ReplacementPlaced | scripts/magicComments/magicComments.js:350-354 | Each found line's replacement lands at its original index moved by the `offset` of the edits before it. |
| Edits.LineAtEnd | scripts/magicComments/magicComments.js:350-354 | The last replacement ends the replaced text, at its index moved by `offset`. |
| Edits.ApplyFound | scripts/magicComments/magicComments.js:350-354 | Selecting `Index + offset` with length `Length` and inserting the replacement turns the text with `i` lines replaced into the text with `i + 1` lines replaced. |
| Edits.ReplacedUnchanged | scripts/magicComments/magicComments.js:363-365 | Replacing every line by the text it already holds gives back the original text. |
| Edits.RewrittenUnchanged | scripts/magicComments/magicComments.js:363-365 | Writing lines already present, with nothing new to add, leaves the document as it was. |
| Edits.NothingFoundPrepends | scripts/magicComments/magicComments.js:339-358 | With no line found, the new lines go to the very start of the document (`last` starts at 0). |
| Edits.Advance | scripts/magicComments/magicComments.js:350-358 | One step of the writer either replaces the span at `Index + offset` or inserts at `last`. `last` moves to the end of the line just written. The text on both sides stays as it was. |
| Edits.CursorsOf | scripts/magicComments/magicComments.js:339-366 | The writer's states run from the untouched text, with `offset` and `last` at 0, to the rewritten document. |
| Edits.AfterNothing | scripts/magicComments/magicComments.js:339 | Before any edit the writer holds the untouched text, with `offset = last = 0`. |
| Edits.AfterAll | scripts/magicComments/magicComments.js:348-366 | After every edit the text is the declaratively rewritten document. |
| Edits.AfterStep | scripts/magicComments/magicComments.js:348-366 | The writer's state after one more edit is its state before, advanced by that edit. The edit can always be applied. |
| Edits.AfterFound | scripts/magicComments/magicComments.js:350-354 | A found edit replaces its moved span, and `offset` and `last` change as the code says. |
| Edits.AfterAdded | scripts/magicComments/magicComments.js:355-358 | A new edit inserts at `last`, and `last` advances past it while `offset` is unchanged. |
| Session.Header | scripts/magicComments/magicComments.js:323 | The reader sees the first `PEEK_LENGTH` = 1024 characters, or the whole shorter text. |
| Session.ReadFindsLine | scripts/magicComments/magicComments.js:323-328 | A match in the header runs from a `%` to the `\n` that ends its line, inside the first 1024 characters (`Index + Length <= 1024`). Its value has nothing to trim and no line terminator. |
| Session.LegacyOnlyForProgram | scripts/magicComments/magicComments.js:201-207 | Only the Program pattern can report the `TS-` form. |
| Session.ReadValue | scripts/magicComments/magicComments.js:327-330 | The value after a search: the trimmed capture of a match, or the value already held. |
| Session.ReadSpan | scripts/magicComments/magicComments.js:327-330 | The place after a search: the match's index and length, or the place already held. |
| Session.Replacement | scripts/magicComments/magicComments.js:349 | `rep`: the comment line when the value is set, the empty string otherwise. |
| Session.Addition | scripts/magicComments/magicComments.js:349-358 | What a directive that was not found adds: its comment line when it has a value, nothing otherwise. |
| Session.EditOf | scripts/magicComments/magicComments.js:349-361 | A directive's edit keeps the directive's place. |
| Session.Plan | scripts/magicComments/magicComments.js:348-361 | One edit per directive, in order, each at its directive's place. |
| Session.PlanIsPlanned | scripts/magicComments/magicComments.js:348-361 | Each edit of the plan is the one for its directive, and each settled value the one the directive keeps. |
| Session.Insert | scripts/magicComments/magicComments.js:341-347 | Insertion into the sorted list adds exactly the one directive: the result's multiset is the list's plus that directive. |
| Session.SortedForWriting | scripts/magicComments/magicComments.js:341-347 | The sort keeps the same directives and the same count. |
| Session.InsertFacts | scripts/magicComments/magicComments.js:341-347 | Insertion keeps the list duplicate-free and in writing order. |
| Session.SortFacts | scripts/magicComments/magicComments.js:341-347 | The sort is a permutation (same multiset of directives, for any input) in writing order: found directives ascending by `Index`, then those not found; distinct directives stay distinct. |
| Session.SortPermutes | scripts/magicComments/magicComments.js:341-347 | The sort returns the same multiset of directives as it is given, for any input. |
| Session.FitsKept | scripts/magicComments/magicComments.js:341-347 | Rearranging the directives keeps their lines inside the text. |
| Session.DisjointKept | scripts/magicComments/magicComments.js:341-347 | Rearranging distinct directives keeps their lines disjoint. |
| Session.SortKeeps | scripts/magicComments/magicComments.js:341-347 | After the sort the directives are distinct, in writing order, and their lines are inside the text and disjoint. |
| Session.OrderedIsArranged | scripts/magicComments/magicComments.js:341-354 | Directives in writing order with disjoint lines inside the text give a plan the writer can apply: found lines one after another, then new ones. |
| Session.SkippedEditIsApplied | scripts/magicComments/magicComments.js:363-365 | Putting the selected text back in its place leaves the text unchanged. |
| Session.ReadEntry | scripts/magicComments/magicComments.js:321-333 | What the reader gives a fresh directive of one kind: the value and place of its pattern's leftmost match in the header, or no value and no place. |
| Session.ReadCompat | scripts/magicComments/magicComments.js:330-332 | Compatibility after reading into a fresh session: on exactly when the Program pattern matched in the `TS-` form. |
| Session.ReadCompatIs | scripts/magicComments/magicComments.js:325-333 | The reader's rule, compatibility on exactly when some directive matched in the `TS-` form, gives `ReadCompat` for directives in registry order with their own patterns. |
| Session.ReadEntriesAre | scripts/magicComments/magicComments.js:319-334 | Fresh directives in registry order, after the reader's search with their own patterns, hold `ReadEntry` of their kind, and the reader's compatibility is `ReadCompat`. |
| Session.ReadOfWrittenLine | scripts/magicComments/magicComments.js:93-119 | Wherever in the header the reader finds the writer's line for a value, it reads the value as written, spans exactly that line, and sees `TS-` exactly for `program` in TeXShop mode. |
| Session.ReadIsCanonical | scripts/magicComments/magicComments.js:321-333 | A directive whose found line is the writer's line for a value that writing leaves unchanged is read into an entry that the writer leaves alone. Its `TS-` form agrees with the compatibility the line was written with. |
| Session.CanonicalEdit | scripts/magicComments/magicComments.js:349-365 | The edit of such an entry puts back the line that is already there, or adds nothing. |
| Session.CanonicalUnchanged | scripts/magicComments/magicComments.js:339-366 | Entries in writing order, with disjoint lines, that the writer leaves alone give a plan that can be applied and whose result is the document itself. |
| Session.ReadThenWriteUnchanged | scripts/magicComments/magicComments.js:341-366 | Directives that the writer leaves alone, with disjoint lines, are sorted and written back to the very same document. |
| Session.ReadHeaderWritesBack | scripts/magicComments/magicComments.js:319-366 | Read, then written: directives holding what the reader takes from a header in the writer's form, with no two lines overlapping, are written back to the very same document, under the compatibility the reader sets. |
| Session.ReadFresh | scripts/magicComments/magicComments.js:311-334 | A fresh session after reading holds `ReadEntry` of each registry kind and `ReadCompat` of the text. |
| Session.ReadThenWrite | scripts/magicComments/magicComments.js:431-437 | The driver's read followed by its write, with no change made in the dialog between them: a document whose header is in the writer's form, with no two found lines overlapping, comes back unchanged. |
| Session.Session.constructor | scripts/magicComments/magicComments.js:311-316 | The four directives are new objects in registry order. Each holds its own kind's pattern, no value, no `TS-` form and no place. Compatibility is off (line 91). |
| Session.Session.ReadDirective | scripts/magicComments/magicComments.js:327-332 | A match gives its value and place to the directive. A `TS-` form switches compatibility on, and it is never switched off. |
| Session.Session.SearchAndRead | scripts/magicComments/magicComments.js:326-332 | One directive's pattern runs over the header, and the directive takes what it finds. |
| Session.Session.Read | scripts/magicComments/magicComments.js:319-334 | Every directive takes the value and place of the leftmost match of its own kind's pattern in the header (`Valid` keeps each directive's pattern its kind's), or keeps its own when there is none. Compatibility becomes on exactly when it was on or some directive matched in the `TS-` form. |
| Session.Session.ReadUnset | scripts/magicComments/magicComments.js:319-334 | `Read` on a session whose directives hold nothing yet: each directive ends with `ReadEntry` of its registry kind, and compatibility with `ReadCompat` of the text. |
| Session.Session.ReadEach | scripts/magicComments/magicComments.js:325-333 | The reader's `forEach` does the per-directive reading for every directive and ORs the `TS-` forms into compatibility. |
| Session.Session.ConfirmDirective | scripts/magicComments/magicComments.js:423-424 | A ticked directive takes the value of its trimmed displayed text, and an unticked one is cleared. |
| Session.Session.ApplyDialog | scripts/magicComments/magicComments.js:419-427 | On acceptance, compatibility takes the check box and every directive takes its answer; places and `TS-` flags stay. On cancel, nothing changes: compatibility, values, places and flags all stay. |
| Session.Session.ConfirmEach | scripts/magicComments/magicComments.js:422-425 | Every directive takes its answer; places and `TS-` forms are unchanged. |
| Session.Session.ReplaceSelection | scripts/magicComments/magicComments.js:363-365 | The selection is replaced, or left alone when it already holds the text; either way the result is the same. |
| Session.Session.ApplyEdit | scripts/magicComments/magicComments.js:350-365 | The editor's select-and-insert performs one writer step exactly as `Advance` specifies. |
| Session.Session.Serialise | scripts/magicComments/magicComments.js:349 | `rep` is the comment line when the value is set and empty otherwise. Serialising may settle the Encoding's value. |
| Session.Session.WriteDirective | scripts/magicComments/magicComments.js:349-365 | The writer's work on one directive moves it from one state to the next of the declarative plan. A directive not found and without a value is passed over. |
| Session.Session.SortForWriting | scripts/magicComments/magicComments.js:341-347 | The directives array is replaced by its sorted order. No directive's value or place changes. |
| Session.Session.Write | scripts/magicComments/magicComments.js:337-367 | After the sort and the edits, the document equals replacing every found line at once and placing the new lines right after the last replaced one. The array is in writing order, and every directive keeps its place and its `TS-` flag and holds its settled value. |
| Session.Session.WriteSorted | scripts/magicComments/magicComments.js:348-366 | The same result, on directives already in writing order. |
| Session.Session.WriteEach | scripts/magicComments/magicComments.js:348-366 | The writer's `forEach` reaches the final state of the plan, and each directive holds its settled value. |

## Left out

- `ShowDialog` is left out: loading the UI file, building the XML of the lists, widget lookup, signal wiring and `dialog.exec` (lines 370-418). Only what happens when the dialog closes (lines 419-427) is modelled, by `Session.Session.ApplyDialog`. The user's answers are its parameters. `EscapeXml` is modelled as a function, without the XML it is put into.
- The top-level driver (lines 431-437) calls the reader, the dialog and the writer in turn. Only a read followed directly by a write is modelled, by `Session.ReadThenWrite`; the dialog's part is `Session.Session.ApplyDialog`.
- The host calls are parameters:
  - `TW.getEngineList`, `TW.getDictionaryList`, `TW.app.getOpenWindows`, `TW.target.fileName` and `TW.app.getOpenFileName` become the `Host` value and the `chosen` parameter of `ProvideValue`;
  - `TW.target.text` is the `text` field;
  - `selectRange`/`selection`/`insertText` are `ReplaceSelection`.
- The editor's undo stack is not modelled. The only trace of it is the skip of an unchanged selection (line 363).
- The dictionary list keeps only each entry's first file (`diclist[d][0]`), since nothing else of an entry is used.
- The four JavaScript constructors are one class with a `kind` field. Their overridden methods dispatch on `kind`.
- `String.prototype.trim` and the regex class `\s` (line 138, modelled in `StripAliases`) match ASCII white space only, and the regex `i` flag folds ASCII case only. Unicode white space and non-ASCII case are not modelled.
- Format.FormatString: the replacement text is inserted literally. The special `$&`, `$$` and `$n` sequences of JavaScript's `replace` are not modelled. A value holding `%` followed by a digit is handled as the script's loop handles it: a later pass may rewrite an earlier argument. After a key without `%`, the value still ends up literally in the line (`Format.FormatMagicComment`).
- `PEEK_LENGTH` counts characters, as the slice at line 323 does. JavaScript's `slice` and `length` count UTF-16 code units, while a Dafny `char` is a Unicode scalar value. For text outside the Basic Multilingual Plane the model's header therefore reaches further than the script's. The editor's own byte-based peek is not part of this model.
- Writing twice is not stated to give what writing once gives, because it does not in general: the writer leaves each directive's `Index` and `Length` as read (lines 350-354), so a second write selects stale places, and added lines can push a found line past `PEEK_LENGTH`. Only the read-then-write round trip of a canonical header is proved (`Session.ReadThenWrite`).
- Session.ReadThenWrite: holds only for a header in the writer's form. A line written differently is normalised by a read and a write, for example `% !TEX encoding = utf-8` becomes `% !TeX encoding = UTF-8`, so the round trip is stated for canonical lines only.
- A found line is replaced from its `%` to its `\n`. Text before the `%` on the same line stays where it is, in front of the written line.
- Session.Session.Write: requires the found lines to lie inside the document and not to overlap. The reader only produces lines inside the header (`Session.ReadFindsLine`). However, two patterns can match overlapping text (a second `% !TeX` inside one line), and the writer's result for that case is not modelled.
- Session.SortedForWriting: the comparator of line 347 returns 0 for two directives that were not found, and for two found at the same `Index`. The model sorts stably (registry order for those not found), while JavaScript's `sort` need not be stable. With disjoint non-empty lines, no two found directives share an `Index`.
- Session.Session.ReplaceSelection: requires the selection to lie inside the text. What the editor does with a selection outside the text is not part of this model.
- Directives.MagicComment.ProvideValue: the file dialog itself is not modelled. The chosen file name is a parameter, and `""` stands for a cancelled dialog.
- The Encoding list follows the code, not the intended alias lookup. The raw value is put in front unless every table row mentions it (lines 185-193). So `ToDisplayValue` shows the raw value unless every row mentions it (`Directives.EncodingDisplay`). No matching row is promoted.
- The Root list holds every open TeX document, the current one included, as the filter at lines 264-266 does.

=== FILE: directives.dfy ===
/**
 * The four magic comments the script edits: `encoding`, `program`, `root` and `spellcheck`.
 * Each is an object with a key, a value read from or written to the document, the place
 * (index and length) where its line was found, and for `program` whether the line used
 * TeXShop's `TS-program` spelling. The four JavaScript constructors share one class here,
 * told apart by `kind`; what differs per kind is spelled out by `match` in the functions
 * that specify the methods.
 *
 * The global `TeXShopCompatibility` flag and the answers of the editor (`TW.*`) are passed
 * in as `compat` and `host`.
 */
module Directives {
  import opened Wrappers
  import opened Strings
  import opened Format
  import opened PathUtil
  import opened LinePattern

  datatype Kind = Encoding | Program | Root | Spellcheck

  /** Where a directive's line was found: `Index` and `Length` of the match. */
  datatype Span = Span(index: nat, length: nat)

  /** An open editor window: its object name and the file it shows. */
  datatype Window = Window(objectName: string, fileName: string)

  /**
   * What the script asks the editor: the engine names (`None` when `TW.getEngineList`
   * does not exist), the first file of each dictionary entry (`None` when
   * `TW.getDictionaryList` does not exist), the open windows and the current file's name.
   */
  datatype Host = Host(
    engines: Option<seq<string>>,
    dictionaries: Option<seq<string>>,
    windows: seq<Window>,
    targetFileName: string)

  function KeyOf(kind: Kind): string
  {
    match kind
    case Encoding => "encoding"
    case Program => "program"
    case Root => "root"
    case Spellcheck => "spellcheck"
  }

  /** The pattern the directive is searched with; only `program` accepts the `TS-` prefix. */
  function PatternOf(kind: Kind): (pat: Pattern)
    ensures pat.key == KeyOf(kind) && (pat.legacyPrefix <==> kind == Program)
  {
    Pattern(KeyOf(kind), kind == Program)
  }

  // ---------------------------------------------------------------------------------------
  // The encoding table

  /**
   * Encoding names known to TeXworks: the name, TeXShop's name (or `""`), then the
   * `inputenc`/`inputenx` names.
   */
  const EncodingTable: seq<seq<string>> := [
    ["UTF-8", "UTF-8 Unicode", "utf-8"],
    ["ISO-8859-1", "IsoLatin", "latin1"],
    ["ISO-8859-2", "IsoLatin2", "latin2"],
    ["ISO-8859-3", "", "latin3"],
    ["ISO-8859-4", "", "latin4"],
    ["ISO-8859-9", "IsoLatin5", "latin5"],
    ["ISO-8859-15", "IsoLatin9", "latin9"],
    ["ISO-8859-16", "", "latin10"],
    ["IBM850", "", "cp850"],
    ["Windows-1250", "", "cp1250"],
    ["Windows-1252", "", "cp1252", "ansinew"],
    ["Windows-1257", "", "cp1257"],
    ["Apple Roman", "MacOSRoman", "applemac", "x-mac-roman"],
    ["ISO-8859-5", "", "iso88595"],
    ["ISO-8859-8", "", "x-iso-8859-8"],
    ["ISO-8859-10", "", "x-latin6"],
    ["ISO-8859-13", "", "x-latin7"],
    ["ISO-8859-14", "", "x-latin8"],
    ["IBM866", "", "x-cp866"],
    ["Windows-1251", "Windows Cyrillic", "x-cp1251"],
    ["Windows-1255", "", "x-cp1255"],
    ["KOI8-R", "KOI8_R", "x-koi8-r"]
  ]

  /** In TeXShop mode a row with a TeXShop name shows that name first. */
  function Swapped(row: seq<string>, compat: bool): (l: seq<string>)
    ensures |l| == |row|
  {
    if compat && |row| >= 2 && row[1] != "" then [row[1], row[0]] + row[2..] else row
  }

  /**
   * A row as the dialog shows it: the first name, then in parentheses the names after the
   * `""` placeholder, or after the first name when there is no placeholder.
   */
  function RowDisplay(row: seq<string>, compat: bool): string
    requires row != []
  {
    var l := Swapped(row, compat);
    var from := if IndexOf(l, "") + 1 == 0 then 1 else IndexOf(l, "") + 1;
    l[0] + " (" + Join(l[from..], ", ") + ")"
  }

  /** Every row of a table as the dialog shows it. */
  function RowsOf(table: seq<seq<string>>, compat: bool): (rows: seq<string>)
    requires forall i :: 0 <= i < |table| ==> table[i] != []
    ensures |rows| == |table|
  {
    if table == [] then [] else [RowDisplay(table[0], compat)] + RowsOf(table[1..], compat)
  }

  function EncodingRows(compat: bool): (rows: seq<string>)
    ensures |rows| == |EncodingTable|
  {
    RowsOf(EncodingTable, compat)
  }

  // ---------------------------------------------------------------------------------------
  // From a displayed value back to a value: the regex `^(.+)\(.+\)\s*$`

  /**
   * The regex matches `s` with its `(` at `a` and its `)` at `c`: a non-empty first group
   * and a non-empty parenthesised part, both without line terminators, then only white space.
   */
  predicate AliasSplit(s: string, a: int, c: int)
  {
    1 <= a && a + 1 < c < |s| && s[a] == '(' && s[c] == ')' &&
    NoLineTerminator(s[..a]) && NoLineTerminator(s[a + 1..c]) && AllSpace(s[c + 1..])
  }

  /** Position of the last `(` in `s[lo..hi]`, if any. */
  function LastOpenParen(s: string, lo: nat, hi: nat): (r: Option<nat>)
    requires lo <= hi <= |s|
    ensures r.Some? ==> lo <= r.value < hi && s[r.value] == '('
    ensures r.Some? ==> forall k :: r.value < k < hi ==> s[k] != '('
    ensures r.None? ==> forall k :: lo <= k < hi ==> s[k] != '('
    decreases hi - lo
  {
    if hi == lo then None
    else if s[hi - 1] == '(' then Some(hi - 1)
    else LastOpenParen(s, lo, hi - 1)
  }

  /**
   * Where the regex puts its `(`, if it matches: the `)` can only be the last character that
   * is not white space, and the greedy first group ends at the last `(` before it that
   * leaves a non-empty parenthesised part.
   */
  function AliasOpen(s: string): (r: Option<nat>)
    ensures r.Some? ==> r.value < |s|
  {
    var t := TrailingSpaces(s);
    if t == |s| then None
    else
      var c := |s| - 1 - t;
      if s[c] != ')' || c < 2 || !NoLineTerminator(s[..c]) then None
      else LastOpenParen(s, 1, c - 1)
  }

  /**
   * The encoding's `FromDisplayValue`: the trimmed first group of the regex when it matches,
   * the text itself otherwise.
   */
  function StripAliases(s: string): string
  {
    match AliasOpen(s)
    case None => s
    case Some(a) => Trim(s[..a])
  }

  /** A character that is not white space, followed only by white space, is the last such one. */
  lemma CloseIsLastNonSpace(s: string, c: int)
    requires 0 <= c < |s| && !IsSpace(s[c]) && AllSpace(s[c + 1..])
    ensures c == |s| - 1 - TrailingSpaces(s)
  {
  }

  /** A line terminator free prefix, split around a character that is not one. */
  lemma NoLineTerminatorAround(s: string, a: int, c: int)
    requires 0 <= a < c <= |s| && !IsLineTerminator(s[a])
    ensures NoLineTerminator(s[..c]) <==> NoLineTerminator(s[..a]) && NoLineTerminator(s[a + 1..c])
  {
    if NoLineTerminator(s[..a]) && NoLineTerminator(s[a + 1..c]) {
      forall k | 0 <= k < c ensures !IsLineTerminator(s[..c][k]) {
        if k < a { assert s[..c][k] == s[..a][k]; }
        else if k > a { assert s[..c][k] == s[a + 1..c][k - a - 1]; }
      }
    }
    if NoLineTerminator(s[..c]) {
      var front, mid := s[..a], s[a + 1..c];
      forall k | 0 <= k < |front| ensures !IsLineTerminator(front[k]) {
        assert front[k] == s[..c][k];
      }
      forall k | 0 <= k < |mid| ensures !IsLineTerminator(mid[k]) {
        assert mid[k] == s[..c][a + 1 + k];
      }
    }
  }

  /**
   * `StripAliases` is what the regex `^(.+)\(.+\)\s*$` does: when it matches, the value is
   * the trimmed first group of the match whose `(` is rightmost (the group is greedy);
   * otherwise the text is kept.
   */
  lemma StripAliasesIsGreedyMatch(s: string)
    ensures (exists a, c :: AliasSplit(s, a, c) && StripAliases(s) == Trim(s[..a]) &&
               forall a', c' :: AliasSplit(s, a', c') ==> a' <= a)
         || (StripAliases(s) == s && forall a, c :: !AliasSplit(s, a, c))
  {
    match AliasOpen(s)
    case None =>
      NoSplit(s);
    case Some(a) =>
      GreedySplit(s, a);
  }

  lemma GreedySplit(s: string, a: nat)
    requires AliasOpen(s) == Some(a)
    ensures AliasSplit(s, a, |s| - 1 - TrailingSpaces(s))
    ensures forall a', c' :: AliasSplit(s, a', c') ==> a' <= a
  {
    GreedySplitMatches(s, a, |s| - 1 - TrailingSpaces(s));
    forall a', c' | AliasSplit(s, a', c') ensures a' <= a {
      GreedySplitIsRightmost(s, a, a', c');
    }
  }

  lemma GreedySplitMatches(s: string, a: nat, c: int)
    requires AliasOpen(s) == Some(a) && c == |s| - 1 - TrailingSpaces(s)
    ensures AliasSplit(s, a, c)
  {
    AliasOpenFacts(s, a);
    assert NoLineTerminator(s[..a]) && NoLineTerminator(s[a + 1..c]) by {
      NoLineTerminatorAround(s, a, c);
    }
    AllSpaceAfterLast(s, c);
  }

  lemma GreedySplitIsRightmost(s: string, a: nat, a': int, c': int)
    requires AliasOpen(s) == Some(a) && AliasSplit(s, a', c')
    ensures a' <= a
  {
    SplitShape(s, a', c');
    AliasOpenFacts(s, a);
  }

  lemma AllSpaceAfterLast(s: string, c: int)
    requires 0 <= c < |s| && c == |s| - 1 - TrailingSpaces(s)
    ensures AllSpace(s[c + 1..])
  {
    var n := TrailingSpaces(s);
    assert AllSpace(s[|s| - n..]);
  }

  lemma AliasOpenFacts(s: string, a: nat)
    requires AliasOpen(s) == Some(a)
    ensures var c := |s| - 1 - TrailingSpaces(s);
      0 <= c < |s| && s[c] == ')' && 2 <= c && NoLineTerminator(s[..c]) && LastOpenParen(s, 1, c - 1) == Some(a)
  {
  }

  lemma NoSplit(s: string)
    requires AliasOpen(s) == None
    ensures forall a, c :: !AliasSplit(s, a, c)
  {
    forall a, c | AliasSplit(s, a, c) ensures false {
      SplitShape(s, a, c);
    }
  }

  /** The `)` sits at the last character that is not white space, with no line terminator before it. */
  predicate SplitAtLastClose(s: string, a: int)
  {
    var t := TrailingSpaces(s);
    t < |s| && 0 <= a < |s| - 1 - t && s[|s| - 1 - t] == ')' && NoLineTerminator(s[..|s| - 1 - t])
  }

  lemma SplitShape(s: string, a: int, c: int)
    requires AliasSplit(s, a, c)
    ensures c == |s| - 1 - TrailingSpaces(s) && SplitAtLastClose(s, a)
  {
    CloseIsLastNonSpace(s, c);
    NoLineTerminatorAround(s, a, c);
  }

  /** The last `(` of a range, identified by the characters after it. */
  lemma {:induction false} LastOpenParenIs(s: string, lo: nat, hi: nat, a: nat)
    requires lo <= a < hi <= |s| && s[a] == '('
    requires forall k :: a < k < hi ==> s[k] != '('
    ensures LastOpenParen(s, lo, hi) == Some(a)
    decreases hi - a
  {
    if hi - 1 != a {
      LastOpenParenIs(s, lo, hi - 1, a);
    }
  }

  /** `name (aliases)` with nothing to trim in the name gives back the name. */
  lemma StripAliasesOfDisplay(name: string, inner: string)
    requires name != [] && NoLineTerminator(name) && !IsSpace(name[0]) && !IsSpace(name[|name| - 1])
    requires inner != [] && NoLineTerminator(inner) && forall k :: 0 <= k < |inner| ==> inner[k] != '('
    ensures StripAliases(name + " (" + inner + ")") == name
  {
    var s := name + " (" + inner + ")";
    DisplayOpensAfterName(name, inner);
    assert s[..|name| + 1] == name + " ";
    TrimTrailingSpace(name);
  }

  /** In `name (aliases)`, the alias list opens right after the name and its space. */
  lemma DisplayOpensAfterName(name: string, inner: string)
    requires NoLineTerminator(name)
    requires inner != [] && NoLineTerminator(inner) && forall k :: 0 <= k < |inner| ==> inner[k] != '('
    ensures AliasOpen(name + " (" + inner + ")") == Some(|name| + 1)
  {
    var s := name + " (" + inner + ")";
    var n := |name|;
    var c := |s| - 1;
    assert TrailingSpaces(s) == 0 by {
      assert s[c] == ')';
    }
    assert NoLineTerminator(s[..c]) by {
      forall k | 0 <= k < c ensures !IsLineTerminator(s[..c][k]) {
        if k < n { assert s[..c][k] == name[k]; }
        else if k >= n + 2 { assert s[..c][k] == inner[k - n - 2]; }
      }
    }
    assert LastOpenParen(s, 1, c - 1) == Some(n + 1) by {
      forall k | n + 1 < k < c - 1 ensures s[k] != '(' {
        assert s[k] == inner[k - n - 2];
      }
      LastOpenParenIs(s, 1, c - 1, n + 1);
    }
  }

  lemma TrimTrailingSpace(name: string)
    requires name != [] && !IsSpace(name[0]) && !IsSpace(name[|name| - 1])
    ensures Trim(name + " ") == name
  {
    var s := name + " ";
    assert s[..|s| - 1] == name;
    assert TrailingSpaces(name) == 0;
    assert LeadingSpaces(s) == 0;
    assert TrailingSpaces(s) == 1;
    assert s[0..|s| - 1] == name;
  }

  /** Text without `(` is kept as it is. */
  lemma StripAliasesWithoutParen(s: string)
    requires forall k :: 0 <= k < |s| ==> s[k] != '('
    ensures StripAliases(s) == s
  {
  }

  /** A table entry that reads back from its display: on one line, trimmed, without `(`. */
  predicate ProperName(w: string)
  {
    w != [] && NoLineTerminator(w) && !IsSpace(w[0]) && !IsSpace(w[|w| - 1]) &&
    forall k :: 0 <= k < |w| ==> w[k] != '('
  }

  /** A row of the table: a name, a TeXShop name or `""`, then at least one more name. */
  predicate WellFormedRow(row: seq<string>)
  {
    |row| >= 3 && ProperName(row[0]) && (row[1] == "" || ProperName(row[1])) &&
    forall k :: 2 <= k < |row| ==> ProperName(row[k])
  }

  /** Choosing a row in the dialog gives back the row's first displayed name. */
  lemma RowDisplayReadsBack(row: seq<string>, compat: bool)
    requires WellFormedRow(row)
    ensures StripAliases(RowDisplay(row, compat)) == Swapped(row, compat)[0]
  {
    var l := Swapped(row, compat);
    var from := if IndexOf(l, "") + 1 == 0 then 1 else IndexOf(l, "") + 1;
    if row[1] == "" {
      assert IndexOf(l, "") == 1;
    } else {
      assert "" !in l;
    }
    var rest := l[from..];
    assert forall i :: 0 <= i < |rest| ==> ProperName(rest[i]);
    var ok := (ch: char) => !IsLineTerminator(ch) && ch != '(';
    JoinKeeps(rest, ", ", ok);
    var inner := Join(rest, ", ");
    assert inner != [] by {
      if |rest| > 1 { assert |inner| >= |rest[0]|; }
    }
    assert forall k :: 0 <= k < |inner| ==> ok(inner[k]);
    StripAliasesOfDisplay(l[0], inner);
  }

  lemma Utf8RowWellFormed(row: seq<string>)
    requires row == ["UTF-8", "UTF-8 Unicode", "utf-8"]
    ensures WellFormedRow(row)
  {
  }

  // ---------------------------------------------------------------------------------------
  // Candidate lists and displayed values

  /** `entry.toLowerCase().indexOf(value.toLowerCase()) >= 0`. */
  predicate Mentions(entry: string, value: string)
  {
    ContainsIgnoringCase(entry, value)
  }

  predicate AllMention(list: seq<string>, value: string)
  {
    forall k :: 0 <= k < |list| ==> Mentions(list[k], value)
  }

  /** The encoding's list: the rows, after the value itself when some row does not mention it. */
  function EncodingList(value: string, compat: bool): seq<string>
  {
    var rows := EncodingRows(compat);
    if value != "" && !AllMention(rows, value) then [value] + rows else rows
  }

  /** The first entry that mentions the value, or the value itself. */
  function FirstMention(list: seq<string>, value: string): string
  {
    if list == [] then value
    else if Mentions(list[0], value) then list[0]
    else FirstMention(list[1..], value)
  }

  /** `value` first when it is set and not among the entries (compared exactly). */
  function PrependUnlisted(value: string, list: seq<string>): seq<string>
  {
    if value != "" && IndexOf(list, value) < 0 then [value] + list else list
  }

  const FallbackEngines: seq<string> := [
    "pdfLaTeX", "XeLaTeX", "LuaLaTeX", "pdfTeX", "XeTeX", "LuaTeX",
    "ConTeXt (LuaTeX)", "ConTeXt (pdfTeX)", "ConTeXt (XeTeX)", "BibTeX", "MakeIndex"
  ]

  const FallbackDictionaries: seq<string> := ["de_DE", "en_US", "es_ES", "fr_FR", "it_IT"]

  function EngineNames(host: Host): seq<string>
  {
    match host.engines
    case None => FallbackEngines
    case Some(names) => names
  }

  /** The entries in order, each kept at its first occurrence only. */
  function Dedup(s: seq<string>): seq<string>
  {
    if s == [] then []
    else
      var kept := Dedup(s[..|s| - 1]);
      if s[|s| - 1] in kept then kept else kept + [s[|s| - 1]]
  }

  function Stems(files: seq<string>): (r: seq<string>)
    ensures |r| == |files| && forall i :: 0 <= i < |files| ==> r[i] == FileNameWithoutExtension(files[i])
  {
    seq(|files|, i requires 0 <= i < |files| => FileNameWithoutExtension(files[i]))
  }

  function DictionaryNames(host: Host): seq<string>
  {
    match host.dictionaries
    case None => FallbackDictionaries
    case Some(files) => Stems(Dedup(files))
  }

  /** The open TeX documents, each as a path relative to `folder`, in window order. */
  function DocumentPaths(windows: seq<Window>, folder: string): seq<string>
  {
    if windows == [] then []
    else
      var w := windows[|windows| - 1];
      DocumentPaths(windows[..|windows| - 1], folder) +
        (if w.objectName == "TeXDocument" then [RelativePathOf(w.fileName, folder)] else [])
  }

  /** The entries the dialog offers before the value is taken into account. */
  function BaseList(kind: Kind, compat: bool, host: Host): seq<string>
  {
    match kind
    case Encoding => EncodingRows(compat)
    case Program => EngineNames(host)
    case Root => DocumentPaths(host.windows, ParentFolder(host.targetFileName))
    case Spellcheck => DictionaryNames(host)
  }

  /** `GetList` of each kind. */
  function CandidateList(kind: Kind, value: string, compat: bool, host: Host): seq<string>
  {
    if kind == Encoding then EncodingList(value, compat)
    else PrependUnlisted(value, BaseList(kind, compat, host))
  }

  /** `ToDisplayValue`: the encoding looks the value up in its list, the others show it as is. */
  function DisplayValue(kind: Kind, value: string, compat: bool): string
  {
    if kind == Encoding then FirstMention(EncodingList(value, compat), value) else value
  }

  /** `FromDisplayValue`: the encoding drops a parenthesised alias list, the others keep the text. */
  function ValueOfDisplay(kind: Kind, display: string): string
  {
    if kind == Encoding then StripAliases(display) else display
  }

  /** The key written: `TS-program` for the program in TeXShop mode. */
  function WrittenKey(kind: Kind, compat: bool): string
  {
    if kind == Program && compat then "TS-program" else KeyOf(kind)
  }

  /** The value written: the encoding goes through display and back, the root uses `/`. */
  function WrittenValue(kind: Kind, value: string, compat: bool): string
  {
    match kind
    case Encoding => ValueOfDisplay(Encoding, DisplayValue(Encoding, value, compat))
    case Root => ReplaceAll(value, "\\", "/")
    case _ => value
  }

  /** `ToCommentString`. */
  function CommentLine(kind: Kind, value: string, compat: bool): string
  {
    MagicCommentLine(WrittenKey(kind, compat), WrittenValue(kind, value, compat))
  }

  /** The value after `ToCommentString`: the encoding keeps what it wrote. */
  function ValueAfterComment(kind: Kind, value: string, compat: bool): string
  {
    if kind == Encoding then WrittenValue(kind, value, compat) else value
  }

  // ---------------------------------------------------------------------------------------
  // The directive objects

  /** The `root` list: every open TeX document, relative to `folder`. */
  method OpenDocumentPaths(windows: seq<Window>, folder: string) returns (list: seq<string>)
    ensures list == DocumentPaths(windows, folder)
  {
    list := [];
    for k := 0 to |windows|
      invariant list == DocumentPaths(windows[..k], folder)
    {
      var w := windows[k];
      assert windows[..k + 1][..k] == windows[..k];
      if w.objectName == "TeXDocument" {
        var path := RelativePath(w.fileName, folder);
        list := list + [path];
      }
    }
    assert windows[..|windows|] == windows;
  }

  /** The dictionary files with repeats dropped, first occurrence kept. */
  method DistinctFiles(files: seq<string>) returns (kept: seq<string>)
    ensures kept == Dedup(files)
  {
    kept := [];
    for k := 0 to |files|
      invariant kept == Dedup(files[..k])
    {
      assert files[..k + 1][..k] == files[..k];
      if IndexOf(kept, files[k]) < 0 {
        kept := kept + [files[k]];
      }
    }
    assert files[..|files|] == files;
  }

  /** The scan over the rows: does every one of them mention `value`? */
  method MentionedByAll(rows: seq<string>, value: string) returns (all: bool)
    ensures all == AllMention(rows, value)
  {
    var i := 0;
    while i < |rows| && Mentions(rows[i], value)
      invariant i <= |rows|
      invariant forall k :: 0 <= k < i ==> Mentions(rows[k], value)
    {
      i := i + 1;
    }
    all := i == |rows|;
  }

  /** The scan of the display: the first entry of `list` that mentions `value`, else `value`. */
  method FindMention(list: seq<string>, value: string) returns (found: string)
    ensures found == FirstMention(list, value)
  {
    var i := 0;
    while i < |list|
      invariant i <= |list|
      invariant FirstMention(list[i..], value) == FirstMention(list, value)
    {
      if Mentions(list[i], value) {
        return list[i];
      }
      assert list[i..][1..] == list[i + 1..];
      i := i + 1;
    }
    return value;
  }

  class MagicComment {
    const kind: Kind
    /** `Regex`: the pattern that finds this directive's line. */
    const regex: Pattern
    var value: string
    var isTeXShopSyntax: bool
    /** `Index` and `Length`; `None` while they are undefined. */
    var span: Option<Span>

    constructor (kind: Kind)
      ensures this.kind == kind && regex == PatternOf(kind) && value == "" && !isTeXShopSyntax && span == None
    {
      this.kind := kind;
      regex := PatternOf(kind);
      value := "";
      isTeXShopSyntax := false;
      span := None;
    }

    /** Takes the place and the trimmed value of a match; `program` also notes its `TS-` group. */
    method FromCommentString(m: Match)
      modifies this
      ensures value == MatchedValue(m) && span == Some(Span(m.index, m.length))
      ensures isTeXShopSyntax == (if kind == Program then m.legacy else old(isTeXShopSyntax))
    {
      span := Some(Span(m.index, m.length));
      value := Trim(m.capture);
      if kind == Program {
        isTeXShopSyntax := m.legacy;
      }
    }

    /** The encoding's list, with the scan that decides whether the value goes first. */
    method EncodingCandidates(compat: bool) returns (list: seq<string>)
      ensures list == EncodingList(value, compat)
    {
      var rows := EncodingRows(compat);
      list := rows;
      if value != "" {
        var all := MentionedByAll(rows, value);
        if !all {
          list := [value] + rows;
        }
      }
    }

    /** `GetList`: the entries offered in the dialog's combo box. */
    method GetList(compat: bool, host: Host) returns (list: seq<string>)
      ensures list == CandidateList(kind, value, compat, host)
    {
      match kind {
      case Encoding =>
        list := EncodingCandidates(compat);
      case Program =>
        list := EngineNames(host);
      case Root =>
        list := OpenDocumentPaths(host.windows, ParentFolder(host.targetFileName));
      case Spellcheck =>
        match host.dictionaries
        case None =>
          list := FallbackDictionaries;
        case Some(files) =>
          var kept := DistinctFiles(files);
          list := Stems(kept);
      }
      if kind != Encoding {
        var shown := ToDisplayValue(compat);
        if value != "" && IndexOf(list, shown) < 0 {
          list := [value] + list;
        }
      }
    }

    /** `ToDisplayValue`: for the encoding, the first list entry mentioning the value. */
    method ToDisplayValue(compat: bool) returns (display: string)
      ensures display == DisplayValue(kind, value, compat)
    {
      if kind != Encoding {
        return value;
      }
      var list := EncodingCandidates(compat);
      display := FindMention(list, value);
    }

    /** `FromDisplayValue`: sets the value from the text shown in the dialog. */
    method FromDisplayValue(display: string) returns (v: string)
      modifies this
      ensures v == value && value == ValueOfDisplay(kind, display)
      ensures isTeXShopSyntax == old(isTeXShopSyntax) && span == old(span)
    {
      if kind == Encoding {
        value := StripAliases(display);
      } else {
        value := display;
      }
      v := value;
    }

    /** `ToCommentString`: the line to write; the encoding also keeps the value it wrote. */
    method ToCommentString(compat: bool) returns (line: string)
      modifies this
      ensures line == CommentLine(kind, old(value), compat)
      ensures value == ValueAfterComment(kind, old(value), compat)
      ensures isTeXShopSyntax == old(isTeXShopSyntax) && span == old(span)
    {
      var key := KeyOf(kind);
      var v := value;
      if kind == Encoding {
        var display := ToDisplayValue(compat);
        v := FromDisplayValue(display);
      } else if kind == Program {
        key := if compat then "TS-program" else "program";
      } else if kind == Root {
        v := ReplaceAll(value, "\\", "/");
      }
      KeysHaveNoPercent(kind, compat);
      line := FormatString(MagicCommentFormat, [key, v]);
      FormatMagicComment(key, v);
    }

    /** `ProvideValue` of `root`: the chosen file relative to the current file's folder. */
    method ProvideValue(host: Host, chosen: string) returns (r: Option<string>)
      requires kind == Root
      ensures chosen == "" <==> r == None
      ensures r.Some? ==> r.value == RelativePathOf(chosen, ParentFolder(host.targetFileName))
      ensures r.Some? ==> NoBackslash(r.value)
    {
      if chosen == "" {
        return None;
      }
      var folder := ParentFolder(host.targetFileName);
      var path := RelativePath(chosen, folder);
      RelativePathUsesSlashes(chosen, folder);
      return Some(path);
    }
  }

  // ---------------------------------------------------------------------------------------
  // Properties

  lemma KeysHaveNoPercent(kind: Kind, compat: bool)
    ensures NoPercent(WrittenKey(kind, compat)) && IsKeyWord(KeyOf(kind))
  {
  }

  /**
   * A written line reads back: the directive's own pattern finds it at the start of the
   * header, spanning exactly the line, with the written value, and with the `TS-` group set
   * exactly for `program` in TeXShop mode.
   */
  lemma CommentLineReadsBack(kind: Kind, value: string, compat: bool, rest: string)
    requires IsLineValue(WrittenValue(kind, value, compat))
    ensures var line := CommentLine(kind, value, compat);
      Exec(line + rest, PatternOf(kind)) ==
        Some(Match(0, |line|, WrittenValue(kind, value, compat), kind == Program && compat))
    ensures MatchedValue(Match(0, |CommentLine(kind, value, compat)|, WrittenValue(kind, value, compat),
                               kind == Program && compat)) == WrittenValue(kind, value, compat)
  {
    var legacy := kind == Program && compat;
    KeysHaveNoPercent(kind, compat);
    assert WrittenKey(kind, compat) == if legacy then "TS-" + KeyOf(kind) else KeyOf(kind);
    ReadBackWrittenLine(PatternOf(kind), legacy, WrittenValue(kind, value, compat), rest);
  }

  /** A written line standing anywhere in a text is matched there by the directive's own pattern. */
  lemma CommentLineReadsBackAt(kind: Kind, value: string, compat: bool, h: string, p: nat, line: string)
    requires IsLineValue(WrittenValue(kind, value, compat))
    requires line == CommentLine(kind, value, compat) && p + |line| <= |h| && h[p..p + |line|] == line
    ensures MatchAt(h, p, PatternOf(kind)) ==
      Some(Match(p, |line|, WrittenValue(kind, value, compat), kind == Program && compat))
  {
    var legacy := kind == Program && compat;
    KeysHaveNoPercent(kind, compat);
    assert WrittenKey(kind, compat) == if legacy then "TS-" + KeyOf(kind) else KeyOf(kind);
    ReadBackWrittenLineAt(h, p, PatternOf(kind), legacy, WrittenValue(kind, value, compat));
  }

  /** `program` and `spellcheck` write their value unchanged, so reading back restores it. */
  lemma PlainValueRoundTrip(kind: Kind, value: string, compat: bool, rest: string)
    requires kind == Program || kind == Spellcheck
    requires IsLineValue(value)
    ensures var m := Exec(CommentLine(kind, value, compat) + rest, PatternOf(kind));
      m.Some? && MatchedValue(m.value) == value && m.value.legacy == (kind == Program && compat)
  {
    CommentLineReadsBack(kind, value, compat, rest);
  }

  /** `root` writes its value with every `\` turned into `/`. */
  lemma RootWritesSlashes(value: string, compat: bool)
    ensures forall k :: 0 <= k < |WrittenValue(Root, value, compat)| ==> WrittenValue(Root, value, compat)[k] != '\\'
  {
    ReplaceOneChar(value, '\\', "/");
    SubstCharRemoves(value, '\\', "/");
  }

  lemma {:induction false} SubstCharRemoves(s: string, c: char, rep: string)
    requires forall k :: 0 <= k < |rep| ==> rep[k] != c
    ensures forall k :: 0 <= k < |SubstChar(s, c, rep)| ==> SubstChar(s, c, rep)[k] != c
  {
    if s != [] {
      SubstCharRemoves(s[1..], c, rep);
      var head := if s[0] == c then rep else [s[0]];
      var tail := SubstChar(s[1..], c, rep);
      forall k | 0 <= k < |head + tail| ensures (head + tail)[k] != c {
        if k < |head| { assert (head + tail)[k] == head[k]; }
        else { assert (head + tail)[k] == tail[k - |head|]; }
      }
    }
  }

  /** A value is mentioned by itself, whatever its case. */
  lemma MentionsItself(v: string)
    ensures Mentions(v, v)
  {
    assert OccursAt(Lower(v), Lower(v), 0) by {
      assert Lower(v)[0..|Lower(v)|] == Lower(v);
    }
  }

  /** Every entry mentions the empty value. */
  lemma EmptyIsMentioned(list: seq<string>)
    ensures AllMention(list, "")
  {
    forall k | 0 <= k < |list| ensures Mentions(list[k], "") {
      assert OccursAt(Lower(list[k]), Lower(""), 0);
    }
  }

  /**
   * The encoding shows the value itself unless every row mentions it (the empty value
   * included), in which case it shows the first row. It never shows a row that merely
   * contains the value when some other row does not.
   */
  lemma EncodingDisplay(value: string, compat: bool)
    ensures var rows := EncodingRows(compat);
      DisplayValue(Encoding, value, compat) == if AllMention(rows, value) then rows[0] else value
  {
    var rows := EncodingRows(compat);
    if value == "" {
      EmptyIsMentioned(rows);
    }
    if AllMention(rows, value) {
      assert Mentions(rows[0], value);
    } else {
      MentionsItself(value);
    }
  }

  /**
   * A set encoding value without `(` that some row does not mention is written unchanged;
   * a value that every row mentions is written as the first row's name.
   */
  lemma EncodingWrittenValue(value: string, compat: bool)
    ensures var rows := EncodingRows(compat);
      !AllMention(rows, value) && (forall k :: 0 <= k < |value| ==> value[k] != '(') ==>
        WrittenValue(Encoding, value, compat) == value
    ensures AllMention(EncodingRows(compat), value) ==>
      WrittenValue(Encoding, value, compat) == if compat then "UTF-8 Unicode" else "UTF-8"
  {
    var rows := EncodingRows(compat);
    EncodingDisplay(value, compat);
    if AllMention(rows, value) {
      Utf8RowWellFormed(EncodingTable[0]);
      RowDisplayReadsBack(EncodingTable[0], compat);
    } else if forall k :: 0 <= k < |value| ==> value[k] != '(' {
      StripAliasesWithoutParen(value);
    }
  }

  /** What the combo box shows for a set value is one of the entries it offers. */
  lemma DisplayValueIsOffered(kind: Kind, value: string, compat: bool, host: Host)
    requires value != ""
    ensures DisplayValue(kind, value, compat) in CandidateList(kind, value, compat, host)
  {
    if kind == Encoding {
      EncodingDisplay(value, compat);
    }
  }

  /** The list is the base list, after the value when the value goes first. */
  lemma CandidateListExtendsBase(kind: Kind, value: string, compat: bool, host: Host)
    ensures var list := CandidateList(kind, value, compat, host);
      var base := BaseList(kind, compat, host);
      (list == base || list == [value] + base) && (value != "" ==> value in list || kind == Encoding)
  {
  }

  /** No name occurs twice after deduplication. */
  lemma {:induction false} DedupDistinct(s: seq<string>)
    ensures forall i, j :: 0 <= i < j < |Dedup(s)| ==> Dedup(s)[i] != Dedup(s)[j]
  {
    if s != [] {
      DedupDistinct(s[..|s| - 1]);
    }
  }

  /** Deduplication keeps every name and adds none. */
  lemma {:induction false} DedupSameNames(s: seq<string>)
    ensures forall x :: x in Dedup(s) <==> x in s
  {
    if s != [] {
      var init := s[..|s| - 1];
      DedupSameNames(init);
      assert s == init + [s[|s| - 1]];
    }
  }

  /** Every open-document path is written with `/` only. */
  lemma {:induction false} DocumentPathsUseSlashes(windows: seq<Window>, folder: string)
    ensures forall i :: 0 <= i < |DocumentPaths(windows, folder)| ==> NoBackslash(DocumentPaths(windows, folder)[i])
  {
    if windows != [] {
      DocumentPathsUseSlashes(windows[..|windows| - 1], folder);
      RelativePathUsesSlashes(windows[|windows| - 1].fileName, folder);
    }
  }
}

=== FILE: edits.dfy ===
/**
 * What writing the directives back does to the document, stated at once rather than edit by
 * edit: every line found by the reader is replaced where it stood in the original text, and
 * the lines of directives that were not found are put right after the last replaced line.
 */
module Edits {
  import opened Wrappers
  import opened Directives

  /**
   * One directive's edit: where its line was read, if it was, and the text that replaces that
   * line or, for a directive not found, the text it adds.
   */
  datatype Edit = Edit(span: Option<Span>, line: string)

  /** First position after a found directive's line. */
  function EndOf(e: Edit): nat
    requires e.span.Some?
  {
    e.span.value.index + e.span.value.length
  }

  /** Found edits one after another, in ascending order of position, inside a text of length `n`. */
  predicate Chain(fs: seq<Edit>, n: nat)
  {
    (forall k :: 0 <= k < |fs| ==> fs[k].span.Some? && EndOf(fs[k]) <= n) &&
    (forall j, k :: 0 <= j < k < |fs| ==> EndOf(fs[j]) <= fs[k].span.value.index)
  }

  /** The end of the last span of a chain, 0 for an empty one. */
  function ChainEnd(fs: seq<Edit>, n: nat): (e: nat)
    requires Chain(fs, n)
    ensures e <= n
  {
    if fs == [] then 0 else EndOf(fs[|fs| - 1])
  }

  /** Number of leading found edits. */
  function FoundCount(es: seq<Edit>): (m: nat)
    ensures m <= |es|
  {
    if es == [] || es[0].span.None? then 0 else 1 + FoundCount(es[1..])
  }

  /** The leading found edits are exactly the first `FoundCount` ones. */
  lemma {:induction false} FoundCountIs(es: seq<Edit>)
    ensures forall k :: 0 <= k < FoundCount(es) ==> es[k].span.Some?
    ensures FoundCount(es) < |es| ==> es[FoundCount(es)].span.None?
  {
    if es != [] && es[0].span.Some? {
      FoundCountIs(es[1..]);
      assert forall k :: 1 <= k < FoundCount(es) ==> es[k] == es[1..][k - 1];
    }
  }

  /** The order the writer works in: found edits first, in place, then the rest. */
  predicate Arranged(es: seq<Edit>, n: nat)
  {
    var m := FoundCount(es);
    Chain(es[..m], n) && forall k :: m <= k < |es| ==> es[k].span.None?
  }

  lemma ChainPrefix(fs: seq<Edit>, i: nat, n: nat)
    requires Chain(fs, n) && i <= |fs|
    ensures Chain(fs[..i], n)
  {
  }

  /** `offset`: the total change of length made by replacing the spans of `fs`. */
  function Shift(fs: seq<Edit>): int
    requires forall k :: 0 <= k < |fs| ==> fs[k].span.Some?
  {
    if fs == [] then 0
    else
      var e := fs[|fs| - 1];
      Shift(fs[..|fs| - 1]) + |e.line| - e.span.value.length
  }

  /** The text up to the end of the last span of `fs`, every span replaced by its edit's line. */
  function Replaced(t: string, fs: seq<Edit>): string
    requires Chain(fs, |t|)
  {
    if fs == [] then []
    else
      var init, e := fs[..|fs| - 1], fs[|fs| - 1];
      Replaced(t, init) + t[ChainEnd(init, |t|)..e.span.value.index] + e.line
  }

  /** All the lines the edits not found add, one after another. */
  function Additions(us: seq<Edit>): string
  {
    if us == [] then [] else Additions(us[..|us| - 1]) + us[|us| - 1].line
  }

  /** The document after writing: replaced spans, then the added lines, then the untouched rest. */
  function Rewritten(t: string, es: seq<Edit>): string
    requires Arranged(es, |t|)
  {
    var m := FoundCount(es);
    Replaced(t, es[..m]) + Additions(es[m..]) + t[ChainEnd(es[..m], |t|)..]
  }

  // ---------------------------------------------------------------------------------------
  // Properties

  /** Replacing the spans changes the length of the text before their end by exactly `offset`. */
  lemma {:induction false} ReplacedLength(t: string, fs: seq<Edit>)
    requires Chain(fs, |t|)
    ensures |Replaced(t, fs)| == ChainEnd(fs, |t|) + Shift(fs)
  {
    if fs != [] {
      ReplacedLength(t, fs[..|fs| - 1]);
    }
  }

  /** Replacing a chain's first spans gives the beginning of replacing them all. */
  lemma {:induction false} ReplacedPrefix(t: string, fs: seq<Edit>, i: nat)
    requires Chain(fs, |t|) && i <= |fs|
    ensures Chain(fs[..i], |t|)
    ensures Replaced(t, fs[..i]) <= Replaced(t, fs)
    decreases |fs|
  {
    if i < |fs| {
      var init := fs[..|fs| - 1];
      assert init[..i] == fs[..i];
      ReplacedPrefix(t, init, i);
    } else {
      assert fs[..i] == fs;
    }
  }

  /**
   * The line of the `k`-th found edit lands at its original index moved by `offset`, the
   * change of length the edits before it made.
   */
  lemma {:induction false} ReplacementPlaced(t: string, fs: seq<Edit>, k: nat)
    requires Chain(fs, |t|) && k < |fs|
    ensures var p, rep := fs[k].span.value.index + Shift(fs[..k]), fs[k].line;
      0 <= p && p + |rep| <= |Replaced(t, fs)| && Replaced(t, fs)[p..p + |rep|] == rep
  {
    var init := fs[..|fs| - 1];
    if k == |fs| - 1 {
      LineAtEnd(t, fs);
    } else {
      assert init[..k] == fs[..k] && init[k] == fs[k];
      ReplacementPlaced(t, init, k);
      var p := fs[k].span.value.index + Shift(fs[..k]);
      PrefixSlice(Replaced(t, init), Replaced(t, fs), p, p + |fs[k].line|);
    }
  }

  /** The last edit's line ends the replaced text, at its index moved by the edits before it. */
  lemma LineAtEnd(t: string, gs: seq<Edit>)
    requires Chain(gs, |t|) && gs != []
    ensures var init, e := gs[..|gs| - 1], gs[|gs| - 1];
      var p := e.span.value.index + Shift(init);
      0 <= p && p + |e.line| == |Replaced(t, gs)| && Replaced(t, gs)[p..] == e.line
  {
    var init, e := gs[..|gs| - 1], gs[|gs| - 1];
    ReplacedLength(t, init);
    var front := Replaced(t, init) + t[ChainEnd(init, |t|)..e.span.value.index];
    assert Replaced(t, gs) == front + e.line;
    assert (front + e.line)[|front|..] == e.line;
  }

  /** One more found edit: its gap of original text, then its line. */
  lemma ReplacedStep(t: string, fs: seq<Edit>, i: nat)
    requires i < |fs| && Chain(fs[..i + 1], |t|)
    ensures Chain(fs[..i], |t|)
    ensures ChainEnd(fs[..i], |t|) <= fs[i].span.value.index && ChainEnd(fs[..i + 1], |t|) == EndOf(fs[i])
    ensures Replaced(t, fs[..i + 1]) ==
      Replaced(t, fs[..i]) + t[ChainEnd(fs[..i], |t|)..fs[i].span.value.index] + fs[i].line
    ensures Shift(fs[..i + 1]) == Shift(fs[..i]) + |fs[i].line| - fs[i].span.value.length
  {
    ChainPrefix(fs[..i + 1], i, |t|);
    assert fs[..i + 1][..i] == fs[..i];
  }

  lemma ConcatSlice(x: string, y: string)
    ensures (x + y)[|x|..|x| + |y|] == y
  {
  }

  /**
   * One found edit, applied the way the writer applies it: its span is selected at its
   * original index moved by `offset` and replaced by its line. This turns the text with the
   * first `i` spans replaced into the text with `i + 1` replaced, `offset` grows by the
   * change of length, and the end of the new line is where the next insertion goes.
   */
  lemma ApplyFound(t: string, fs: seq<Edit>, i: nat, text: string, offset: int)
    requires i < |fs| && Chain(fs[..i], |t|) && Chain(fs[..i + 1], |t|)
    requires offset == Shift(fs[..i]) && text == Replaced(t, fs[..i]) + t[ChainEnd(fs[..i], |t|)..]
    ensures var s, l, rep := fs[i].span.value.index, fs[i].span.value.length, fs[i].line;
      0 <= s + offset && s + offset + l <= |text| &&
      text[..s + offset] + rep + text[s + offset + l..] == Replaced(t, fs[..i + 1]) + t[ChainEnd(fs[..i + 1], |t|)..] &&
      |Replaced(t, fs[..i + 1])| == s + offset + |rep| && Shift(fs[..i + 1]) == offset + |rep| - l
  {
    ReplacedStep(t, fs, i);
    ReplacedLength(t, fs[..i]);
    Splice(Replaced(t, fs[..i]), t, ChainEnd(fs[..i], |t|), fs[i].span.value.index, fs[i].span.value.length, fs[i].line);
  }

  lemma Splice(r: string, t: string, e: nat, s: nat, l: nat, rep: string)
    requires e <= s && s + l <= |t|
    ensures var text, p := r + t[e..], |r| + s - e;
      p + l <= |text| && text[..p] + rep + text[p + l..] == r + t[e..s] + rep + t[s + l..]
  {
    var text, p := r + t[e..], |r| + s - e;
    assert text[..p] == r + t[e..s];
    assert text[p + l..] == t[s + l..];
  }

  /** One more edit that was not found: its line goes after the lines added so far. */
  lemma AdditionsStep(es: seq<Edit>, m: nat, i: nat)
    requires m <= i < |es|
    ensures Additions(es[m..i + 1]) == Additions(es[m..i]) + es[i].line
  {
    assert es[m..i + 1][..i - m] == es[m..i];
  }

  lemma PrefixSlice(a: string, b: string, p: nat, q: nat)
    requires a <= b && p <= q <= |a|
    ensures q <= |b| && b[p..q] == a[p..q]
  {
    assert b[..|a|] == a;
  }

  /** Replacing every span by the text it already holds gives back the text up to the chain's end. */
  lemma {:induction false} ReplacedUnchanged(t: string, fs: seq<Edit>)
    requires Chain(fs, |t|)
    requires forall k :: 0 <= k < |fs| ==> fs[k].line == t[fs[k].span.value.index..EndOf(fs[k])]
    ensures Replaced(t, fs) == t[..ChainEnd(fs, |t|)]
  {
    if fs != [] {
      var init, e := fs[..|fs| - 1], fs[|fs| - 1];
      ReplacedUnchanged(t, init);
      var a, b := ChainEnd(init, |t|), e.span.value.index;
      assert t[..a] + t[a..b] + t[b..EndOf(e)] == t[..EndOf(e)];
    }
  }

  /**
   * Writing lines that are already in the text, with nothing new to add, leaves the document
   * as it was: the writer's skipped edits and applied ones agree.
   */
  lemma RewrittenUnchanged(t: string, es: seq<Edit>)
    requires Arranged(es, |t|)
    requires forall k :: 0 <= k < |es| && es[k].span.Some? ==>
      EndOf(es[k]) <= |t| && es[k].line == t[es[k].span.value.index..EndOf(es[k])]
    requires forall k :: 0 <= k < |es| && es[k].span.None? ==> es[k].line == ""
    ensures Rewritten(t, es) == t
  {
    var m := FoundCount(es);
    var fs, us := es[..m], es[m..];
    ReplacedUnchanged(t, fs);
    AdditionsEmpty(us);
    assert t[..ChainEnd(fs, |t|)] + t[ChainEnd(fs, |t|)..] == t;
  }

  lemma {:induction false} AdditionsEmpty(us: seq<Edit>)
    requires forall k :: 0 <= k < |us| ==> us[k].line == ""
    ensures Additions(us) == ""
  {
    if us != [] {
      AdditionsEmpty(us[..|us| - 1]);
    }
  }

  /** With no line found, the new lines go to the very start of the document. */
  lemma {:induction false} NothingFoundPrepends(t: string, es: seq<Edit>)
    requires forall k :: 0 <= k < |es| ==> es[k].span.None?
    ensures Arranged(es, |t|) && Rewritten(t, es) == Additions(es) + t
  {
    var empty: seq<Edit> := [];
    FoundCountIs(es);
    assert FoundCount(es) == 0 && es[..0] == empty && es[0..] == es;
    assert Chain(empty, |t|) && Replaced(t, empty) == [] && ChainEnd(empty, |t|) == 0;
    assert Rewritten(t, es) == Replaced(t, empty) + Additions(es) + t[0..];
  }

  // ---------------------------------------------------------------------------------------
  // The writer, one edit at a time

  /** The writer's state: the text so far, `offset` and `last`. */
  datatype Cursor = Cursor(text: string, offset: int, last: nat)

  /** Where the writer stands after the first `i` edits of an arranged plan. */
  function After(t: string, es: seq<Edit>, i: nat): Cursor
    requires Arranged(es, |t|) && i <= |es|
  {
    var m := FoundCount(es);
    if i <= m then
      PrefixChain(es, i, |t|);
      var front := Replaced(t, es[..i]);
      Cursor(front + t[ChainEnd(es[..i], |t|)..], Shift(es[..i]), |front|)
    else
      PrefixChain(es, m, |t|);
      var front, added := Replaced(t, es[..m]), Additions(es[m..i]);
      Cursor(front + added + t[ChainEnd(es[..m], |t|)..], Shift(es[..m]), |front| + |added|)
  }

  /** `cs` lists where the writer stands after each number of edits of an arranged plan. */
  predicate Cursors(t: string, es: seq<Edit>, cs: seq<Cursor>)
  {
    Arranged(es, |t|) && |cs| == |es| + 1 &&
    forall k: nat {:trigger After(t, es, k)} :: k <= |es| ==> After(t, es, k) == cs[k]
  }

  /** The writer's positions along an arranged plan: from the untouched text to the rewritten one. */
  lemma CursorsOf(t: string, es: seq<Edit>) returns (cs: seq<Cursor>)
    requires Arranged(es, |t|)
    ensures Cursors(t, es, cs) && cs[0] == Cursor(t, 0, 0) && cs[|es|].text == Rewritten(t, es)
  {
    cs := seq(|es| + 1, k requires 0 <= k <= |es| => After(t, es, k));
    AfterNothing(t, es);
    AfterAll(t, es);
  }

  /** The first edits of an arranged plan, up to the last found one, form a chain. */
  lemma PrefixChain(es: seq<Edit>, i: nat, n: nat)
    requires Arranged(es, n) && i <= FoundCount(es)
    ensures Chain(es[..i], n)
  {
    var m := FoundCount(es);
    ChainPrefix(es[..m], i, n);
    assert es[..m][..i] == es[..i];
  }

  /** The writer starts on the untouched text. */
  lemma AfterNothing(t: string, es: seq<Edit>)
    requires Arranged(es, |t|)
    ensures After(t, es, 0) == Cursor(t, 0, 0)
  {
    var empty: seq<Edit> := [];
    assert es[..0] == empty;
  }

  /** After every edit, the text is the rewritten document. */
  lemma AfterAll(t: string, es: seq<Edit>)
    requires Arranged(es, |t|)
    ensures After(t, es, |es|).text == Rewritten(t, es)
  {
    var m := FoundCount(es);
    if m == |es| {
      var empty: seq<Edit> := [];
      assert es[m..] == empty && es[..|es|] == es[..m];
    } else {
      assert es[m..|es|] == es[m..];
    }
  }

  /**
   * The writer can apply `e` at `c`: a found span, moved by `offset`, lies inside the text;
   * the insertion point `last` does.
   */
  predicate Applicable(c: Cursor, e: Edit)
  {
    if e.span.Some? then
      0 <= e.span.value.index + c.offset && e.span.value.index + c.offset + e.span.value.length <= |c.text|
    else c.last <= |c.text|
  }

  /**
   * One step of the writer: a found edit replaces its span, selected at its index moved by
   * `offset`, and `offset` grows by the change of length; an edit not found is inserted at
   * `last`. Either way `last` moves to the end of the line just written, and the text before
   * and after that line is the text as it was around the span or insertion point.
   */
  function Advance(c: Cursor, e: Edit): (d: Cursor)
    requires Applicable(c, e)
    ensures var p := if e.span.Some? then e.span.value.index + c.offset else c.last;
      var l := if e.span.Some? then e.span.value.length else 0;
      0 <= p && d.last == p + |e.line| <= |d.text| && d.text[p..d.last] == e.line &&
      d.text[..p] == c.text[..p] && d.text[d.last..] == c.text[p + l..]
    ensures d.offset == c.offset + |e.line| - (if e.span.Some? then e.span.value.length else |e.line|)
  {
    var p := if e.span.Some? then e.span.value.index + c.offset else c.last;
    var l := if e.span.Some? then e.span.value.length else 0;
    var text := c.text[..p] + e.line + c.text[p + l..];
    assert text[p..p + |e.line|] == e.line && text[..p] == c.text[..p] && text[p + |e.line|..] == c.text[p + l..];
    Cursor(text, if e.span.Some? then c.offset + |e.line| - l else c.offset, p + |e.line|)
  }

  /** The writer's state after one more edit is its state before, advanced by that edit. */
  lemma {:induction false} AfterStep(t: string, es: seq<Edit>, i: nat)
    requires Arranged(es, |t|) && i < |es|
    ensures Applicable(After(t, es, i), es[i]) && After(t, es, i + 1) == Advance(After(t, es, i), es[i])
  {
    FoundCountIs(es);
    if i < FoundCount(es) {
      AfterFound(t, es, i);
    } else {
      AfterAdded(t, es, i);
    }
  }

  lemma AfterFound(t: string, es: seq<Edit>, i: nat)
    requires Arranged(es, |t|) && i < FoundCount(es)
    ensures var c, e := After(t, es, i), es[i];
      var p, l := e.span.value.index + c.offset, e.span.value.length;
      e.span.Some? && 0 <= p && p + l <= |c.text| &&
      After(t, es, i + 1) == Cursor(c.text[..p] + e.line + c.text[p + l..], c.offset + |e.line| - l, p + |e.line|)
  {
    PrefixChain(es, i, |t|);
    PrefixChain(es, i + 1, |t|);
    var c := After(t, es, i);
    ApplyFound(t, es, i, c.text, c.offset);
  }

  lemma AfterAdded(t: string, es: seq<Edit>, i: nat)
    requires Arranged(es, |t|) && FoundCount(es) <= i < |es|
    ensures var c, e := After(t, es, i), es[i];
      c.last <= |c.text| &&
      After(t, es, i + 1) == Cursor(c.text[..c.last] + e.line + c.text[c.last..], c.offset, c.last + |e.line|)
  {
    var m := FoundCount(es);
    PrefixChain(es, m, |t|);
    var front, rest := Replaced(t, es[..m]), t[ChainEnd(es[..m], |t|)..];
    var added := Additions(es[m..i]);
    var c := After(t, es, i);
    assert c == Cursor(front + added + rest, Shift(es[..m]), |front| + |added|) by {
      if i == m {
        var empty: seq<Edit> := [];
        assert es[m..i] == empty;
      }
    }
    AdditionsStep(es, m, i);
    InsertAt(front, added, rest, es[i].line);
  }

  /** Inserting at the end of the lines added so far. */
  lemma InsertAt(x: string, a: string, y: string, rep: string)
    ensures var text, p := x + a + y, |x| + |a|; text[..p] + rep + text[p..] == x + (a + rep) + y
  {
    var text, p := x + a + y, |x| + |a|;
    assert text[..p] == x + a && text[p..] == y;
  }
}

=== FILE: format.dfy ===
/**
 * The script's utility functions: `String.prototype.format`, which fills the `%0`, `%1`, ...
 * placeholders of a format string, and `EscapeXml`, which escapes the three XML characters
 * in the candidate values put into the dialog description.
 */
module Format {
  import opened Strings

  /** Decimal digits of `n`, what `"%" + i` appends for the placeholder number. */
  function DecimalString(n: nat): (r: string)
    ensures r != []
    ensures forall k :: 0 <= k < |r| ==> '0' <= r[k] <= '9'
  {
    var digit := ['0' + (n % 10) as char];
    if n < 10 then digit else DecimalString(n / 10) + digit
  }

  /** The placeholder `%i`. */
  function Placeholder(i: nat): (p: string)
    ensures |p| >= 2 && p[0] == '%'
  {
    "%" + DecimalString(i)
  }

  /** `fmt` after the first `n` rounds of the format loop: placeholders 0 to n-1 replaced in turn. */
  function Formatted(fmt: string, args: seq<string>, n: nat): string
    requires n <= |args|
  {
    if n == 0 then fmt
    else ReplaceAll(Formatted(fmt, args, n - 1), Placeholder(n - 1), args[n - 1])
  }

  /** `String.prototype.format`: one global replacement per argument, in argument order. */
  method FormatString(fmt: string, args: seq<string>) returns (result: string)
    ensures result == Formatted(fmt, args, |args|)
  {
    result := fmt;
    for i := 0 to |args|
      invariant result == Formatted(fmt, args, i)
    {
      result := ReplaceAll(result, Placeholder(i), args[i]);
    }
  }

  /** The format string of a magic comment line (`fmtMagicComment`). */
  const MagicCommentFormat: string := "% !TeX " + "%0" + " = " + "%1" + "\n"

  /** The line the format produces for a key and a value, written out. */
  function MagicCommentLine(key: string, value: string): string
  {
    "% !TeX " + key + " = " + value + "\n"
  }

  // ---------------------------------------------------------------------------------------
  // The format string applied to a key and a value

  /** An occurrence in `s` after its first character is an occurrence in its tail, one place earlier. */
  lemma OccursAtTail(s: string, pat: string, i: int)
    requires s != [] && 0 <= i
    ensures OccursAt(s[1..], pat, i) == OccursAt(s, pat, i + 1)
  {
    if i + |pat| <= |s| - 1 {
      assert s[1..][i..i + |pat|] == s[i + 1..i + 1 + |pat|];
    }
  }

  /** A character where `pat` does not fit rules the occurrence out. */
  lemma NotOccursAt(s: string, pat: string, i: int, k: int)
    requires 0 <= i && 0 <= k < |pat| && i + k < |s| && s[i + k] != pat[k]
    ensures !OccursAt(s, pat, i)
  {
  }

  /** Without an occurrence at the front, the first character is copied. */
  lemma ReplaceAllCopiesFirst(s: string, pat: string, rep: string)
    requires pat != [] && s != [] && !OccursAt(s, pat, 0)
    ensures ReplaceAll(s, pat, rep) == [s[0]] + ReplaceAll(s[1..], pat, rep)
  {
    if |s| >= |pat| {
      assert s[..|pat|] != pat;
    } else {
      assert [s[0]] + s[1..] == s;
    }
  }

  /** No occurrence of `pat` in `s` starts before position `n`. */
  predicate NoOccurrenceBefore(s: string, pat: string, n: int)
  {
    forall i :: 0 <= i < n ==> !OccursAt(s, pat, i)
  }

  lemma NoOccurrenceInTail(u: string, v: string, pat: string)
    requires u != [] && NoOccurrenceBefore(u + v, pat, |u|)
    ensures !OccursAt(u + v, pat, 0) && NoOccurrenceBefore(u[1..] + v, pat, |u| - 1)
  {
    var s := u + v;
    assert s[1..] == u[1..] + v;
    forall i | 0 <= i < |u| - 1 ensures !OccursAt(u[1..] + v, pat, i) {
      OccursAtTail(s, pat, i);
    }
  }

  /** A prefix that holds no occurrence of `pat` (not even one running into the rest) is copied. */
  lemma {:induction false} ReplaceAllSkipsPrefix(u: string, v: string, pat: string, rep: string)
    requires pat != []
    requires NoOccurrenceBefore(u + v, pat, |u|)
    ensures ReplaceAll(u + v, pat, rep) == u + ReplaceAll(v, pat, rep)
  {
    if u == [] {
      assert u + v == v;
    } else {
      NoOccurrenceInTail(u, v, pat);
      ReplaceAllSkipsPrefix(u[1..], v, pat, rep);
      ReplaceAllCopiesFirst(u + v, pat, rep);
      assert (u + v)[1..] == u[1..] + v;
      assert [u[0]] + u[1..] == u;
    }
  }

  /** An occurrence at the front is replaced. */
  lemma ReplaceAllAtFront(v: string, pat: string, rep: string)
    requires pat != []
    ensures ReplaceAll(pat + v, pat, rep) == rep + ReplaceAll(v, pat, rep)
  {
    assert (pat + v)[..|pat|] == pat;
    assert (pat + v)[|pat|..] == v;
  }

  lemma PlaceholdersOfLine()
    ensures Placeholder(0) == "%0" && Placeholder(1) == "%1"
  {
  }

  predicate NoPercent(s: string)
  {
    forall i :: 0 <= i < |s| ==> s[i] != '%'
  }

  /** Filling `%0`: nothing before the placeholder looks like `%0`. */
  lemma FillKey(key: string)
    ensures ReplaceAll(MagicCommentFormat, "%0", key) == "% !TeX " + key + (" = " + "%1" + "\n")
  {
    var u, v := "% !TeX ", " = " + "%1" + "\n";
    var s := u + ("%0" + v);
    assert MagicCommentFormat == s;
    assert NoOccurrenceBefore(s, "%0", |u|) by {
      forall i | 0 <= i < |u| ensures !OccursAt(s, "%0", i) {
        NotOccursAt(s, "%0", i, 1);
      }
    }
    ReplaceAllSkipsPrefix(u, "%0" + v, "%0", key);
    ReplaceAllAtFront(v, "%0", key);
    assert !Contains(v, "%0") by {
      forall i | 0 <= i <= |v| - 2 ensures !OccursAt(v, "%0", i) {
        NotOccursAt(v, "%0", i, 1);
      }
    }
    ReplaceAllWithoutOccurrence(v, "%0", key);
  }

  /** Filling `%1`: a key without `%` cannot contain the placeholder. */
  lemma FillValue(key: string, value: string)
    requires NoPercent(key)
    ensures ReplaceAll("% !TeX " + key + (" = " + "%1" + "\n"), "%1", value) == MagicCommentLine(key, value)
  {
    var u := "% !TeX " + key + " = ";
    var s := u + ("%1" + "\n");
    assert "% !TeX " + key + (" = " + "%1" + "\n") == s;
    assert NoOccurrenceBefore(s, "%1", |u|) by {
      forall i | 0 <= i < |u| ensures !OccursAt(s, "%1", i) {
        if i == 0 {
          NotOccursAt(s, "%1", i, 1);
        } else if i < 7 {
          assert s[i] == "% !TeX "[i];
          NotOccursAt(s, "%1", i, 0);
        } else if i < 7 + |key| {
          assert s[i] == key[i - 7];
          NotOccursAt(s, "%1", i, 0);
        } else {
          assert s[i] == " = "[i - 7 - |key|];
          NotOccursAt(s, "%1", i, 0);
        }
      }
    }
    ReplaceAllSkipsPrefix(u, "%1" + "\n", "%1", value);
    ReplaceAllAtFront("\n", "%1", value);
    assert ReplaceAll("\n", "%1", value) == "\n";
  }

  /**
   * `fmtMagicComment.format(key, value)` is exactly `% !TeX <key> = <value>` and a newline,
   * for every key without `%` (all keys of the script) and every value.
   */
  lemma FormatMagicComment(key: string, value: string)
    requires NoPercent(key)
    ensures Formatted(MagicCommentFormat, [key, value], 2) == MagicCommentLine(key, value)
  {
    PlaceholdersOfLine();
    assert Formatted(MagicCommentFormat, [key, value], 1)
        == ReplaceAll(MagicCommentFormat, "%0", key);
    FillKey(key);
    FillValue(key, value);
  }

  // ---------------------------------------------------------------------------------------
  // EscapeXml

  /** `EscapeXml`: `&`, then `<`, then `>` are replaced, each pass over the whole string. */
  function EscapeXml(s: string): string
  {
    ReplaceAll(ReplaceAll(ReplaceAll(s, "&", "&amp;"), "<", "&lt;"), ">", "&gt;")
  }

  /** Escaping one character at a time, the reference the three passes are compared with. */
  function EscapeChar(c: char): string
  {
    if c == '&' then "&amp;" else if c == '<' then "&lt;" else if c == '>' then "&gt;" else [c]
  }

  function EscapedPerChar(s: string): string
  {
    if s == [] then [] else EscapeChar(s[0]) + EscapedPerChar(s[1..])
  }

  /** Replacing a one-character pattern, as a map over the characters. */
  function SubstChar(s: string, c: char, rep: string): string
  {
    if s == [] then [] else (if s[0] == c then rep else [s[0]]) + SubstChar(s[1..], c, rep)
  }

  lemma {:induction false} ReplaceOneChar(s: string, c: char, rep: string)
    ensures ReplaceAll(s, [c], rep) == SubstChar(s, c, rep)
  {
    if s != [] {
      ReplaceOneChar(s[1..], c, rep);
      assert s[..1] == [s[0]];
    }
  }

  lemma {:induction false} SubstCharConcat(a: string, b: string, c: char, rep: string)
    ensures SubstChar(a + b, c, rep) == SubstChar(a, c, rep) + SubstChar(b, c, rep)
  {
    if a == [] {
      assert a + b == b;
    } else {
      assert (a + b)[1..] == a[1..] + b;
      SubstCharConcat(a[1..], b, c, rep);
    }
  }

  lemma SubstCharNoOccurrence(s: string, c: char, rep: string)
    requires forall i :: 0 <= i < |s| ==> s[i] != c
    ensures SubstChar(s, c, rep) == s
  {
  }

  /** The three global passes escape every character on its own: no inserted `&` is escaped again. */
  lemma {:induction false} EscapeXmlPerChar(s: string)
    ensures EscapeXml(s) == EscapedPerChar(s)
  {
    ReplaceOneChar(s, '&', "&amp;");
    ReplaceOneChar(SubstChar(s, '&', "&amp;"), '<', "&lt;");
    ReplaceOneChar(SubstChar(SubstChar(s, '&', "&amp;"), '<', "&lt;"), '>', "&gt;");
    EscapeChainPerChar(s);
  }

  lemma {:induction false} EscapeChainPerChar(s: string)
    ensures SubstChar(SubstChar(SubstChar(s, '&', "&amp;"), '<', "&lt;"), '>', "&gt;") == EscapedPerChar(s)
  {
    if s != [] {
      EscapeChainPerChar(s[1..]);
      var a := if s[0] == '&' then "&amp;" else [s[0]];
      var t := SubstChar(s[1..], '&', "&amp;");
      SubstCharConcat(a, t, '<', "&lt;");
      var b := SubstChar(a, '<', "&lt;");
      SubstCharConcat(b, SubstChar(t, '<', "&lt;"), '>', "&gt;");
      assert SubstChar(SubstChar(a, '<', "&lt;"), '>', "&gt;") == EscapeChar(s[0]) by {
        if s[0] == '&' {
          SubstCharNoOccurrence("&amp;", '<', "&lt;");
          SubstCharNoOccurrence("&amp;", '>', "&gt;");
        } else if s[0] == '<' {
          SubstCharNoOccurrence("&lt;", '>', "&gt;");
        }
      }
    }
  }

  /** An escaped string holds no `<` and no `>`. */
  lemma {:induction false} EscapedHasNoAngleBrackets(s: string)
    ensures forall i :: 0 <= i < |EscapeXml(s)| ==> EscapeXml(s)[i] != '<' && EscapeXml(s)[i] != '>'
  {
    EscapeXmlPerChar(s);
    PerCharHasNoAngleBrackets(s);
  }

  lemma {:induction false} PerCharHasNoAngleBrackets(s: string)
    ensures forall i :: 0 <= i < |EscapedPerChar(s)| ==> EscapedPerChar(s)[i] != '<' && EscapedPerChar(s)[i] != '>'
  {
    if s != [] {
      PerCharHasNoAngleBrackets(s[1..]);
      var e, t := EscapeChar(s[0]), EscapedPerChar(s[1..]);
      forall i | 0 <= i < |e + t| ensures (e + t)[i] != '<' && (e + t)[i] != '>' {
        if i >= |e| { assert (e + t)[i] == t[i - |e|]; }
      }
    }
  }
}

=== FILE: path.dfy ===
/**
 * The `Path` helper object of the magic-comment script: the file name of a path without
 * its extension, the folder part of a path, and the path of a file relative to a folder.
 * Both `/` and `\` separate path segments.
 */
module PathUtil {
  import opened Strings

  predicate IsSeparator(c: char)
  {
    c == '/' || c == '\\'
  }

  predicate NoSeparator(s: string)
  {
    forall i :: 0 <= i < |s| ==> !IsSeparator(s[i])
  }

  /** Index of the last `.` in `s`, or -1. */
  function LastDot(s: string): (r: int)
    ensures -1 <= r < |s|
    ensures r >= 0 ==> s[r] == '.'
    ensures forall k :: r < k < |s| ==> s[k] != '.'
  {
    if s == [] then -1
    else if s[|s| - 1] == '.' then |s| - 1
    else LastDot(s[..|s| - 1])
  }

  /** Index of the last separator in `s`, or -1. */
  function LastSeparator(s: string): (r: int)
    ensures -1 <= r < |s|
    ensures r >= 0 ==> IsSeparator(s[r])
    ensures forall k :: r < k < |s| ==> !IsSeparator(s[k])
  {
    if s == [] then -1
    else if IsSeparator(s[|s| - 1]) then |s| - 1
    else LastSeparator(s[..|s| - 1])
  }

  /**
   * The regex `([^\\/]+)\.[^.]+$` matches `path` from `p`, with its group ending at the dot `d`:
   * a non-empty run without separators, a dot, then a non-empty tail without dots up to the end.
   */
  ghost predicate StemAt(path: string, p: int, d: int)
  {
    0 <= p < d < |path| - 1 &&
    path[d] == '.' &&
    (forall k :: d < k < |path| ==> path[k] != '.') &&
    (forall k :: p <= k < d ==> !IsSeparator(path[k]))
  }

  /**
   * `Path.getFileNameWithoutExtension`: the group of the leftmost match of the stem pattern,
   * or the path itself when the pattern does not match.
   */
  function FileNameWithoutExtension(path: string): (r: string)
    ensures (exists p, d :: StemAt(path, p, d) && r == path[p..d] &&
               forall q, e :: 0 <= q < p ==> !StemAt(path, q, e))
         || (r == path && forall p, d :: !StemAt(path, p, d))
  {
    var d := LastDot(path);
    if d < 0 || d + 1 == |path| then
      assert forall p, e :: !StemAt(path, p, e);
      path
    else
      var p := LastSeparator(path[..d]) + 1;
      if p < d then
        assert StemAt(path, p, d);
        assert forall q, e :: 0 <= q < p ==> !StemAt(path, q, e) by {
          if p > 0 { assert IsSeparator(path[..d][p - 1]); }
        }
        path[p..d]
      else
        assert forall q, e :: !StemAt(path, q, e) by {
          if d > 0 { assert IsSeparator(path[..d][d - 1]); }
        }
        path
  }

  /**
   * The anchored regex `^(.*[\\/])[^\\/]+\.[^.]+$` matches `path` with its group ending at the
   * separator `k`: no line terminator before `k`, then a file name with an extension.
   */
  ghost predicate ParentAt(path: string, k: int, d: int)
  {
    0 <= k && k + 1 < d < |path| - 1 &&
    IsSeparator(path[k]) && NoLineTerminator(path[..k]) &&
    path[d] == '.' &&
    (forall j :: d < j < |path| ==> path[j] != '.') &&
    (forall j :: k < j < d ==> !IsSeparator(path[j]))
  }

  /** `Path.getParentFolder`: the folder part including its final separator, or `"."`. */
  function ParentFolder(path: string): (r: string)
    ensures (exists k, d :: ParentAt(path, k, d) && r == path[..k + 1])
         || (r == "." && forall k, d :: !ParentAt(path, k, d))
  {
    var d := LastDot(path);
    if d < 0 || d + 1 == |path| then
      assert forall k, e :: !ParentAt(path, k, e);
      "."
    else
      var k := LastSeparator(path[..d]);
      if 0 <= k && k + 1 < d && NoLineTerminator(path[..k]) then
        assert ParentAt(path, k, d);
        path[..k + 1]
      else
        assert forall j, e :: !ParentAt(path, j, e) by {
          forall j, e | ParentAt(path, j, e) ensures j == k {
            assert IsSeparator(path[..d][j]);
            if 0 <= k { assert IsSeparator(path[..d][k]); }
          }
        }
        "."
  }

  /** `s.split(/[\\/]/)`: the pieces between separators, empty ones included. */
  function Split(s: string): (parts: seq<string>)
    ensures |parts| >= 1
  {
    if s == [] then [[]]
    else
      var rest := Split(s[1..]);
      if IsSeparator(s[0]) then [[]] + rest
      else [[s[0]] + rest[0]] + rest[1..]
  }

  /** The `.filter(e => e && e != ".")` step. */
  function DropEmptyAndDot(parts: seq<string>): seq<string>
  {
    if parts == [] then []
    else if parts[0] == [] || parts[0] == "." then DropEmptyAndDot(parts[1..])
    else [parts[0]] + DropEmptyAndDot(parts[1..])
  }

  lemma {:induction false} SplitPiecesHaveNoSeparator(s: string)
    ensures forall i :: 0 <= i < |Split(s)| ==> NoSeparator(Split(s)[i])
  {
    if s != [] {
      SplitPiecesHaveNoSeparator(s[1..]);
      var rest := Split(s[1..]);
      if !IsSeparator(s[0]) {
        assert NoSeparator([s[0]] + rest[0]) by {
          assert NoSeparator(rest[0]);
          forall k | 0 <= k < |[s[0]] + rest[0]| ensures !IsSeparator(([s[0]] + rest[0])[k]) {
            if k > 0 { assert ([s[0]] + rest[0])[k] == rest[0][k - 1]; }
          }
        }
      }
    }
  }

  lemma {:induction false} DropKeepsNames(parts: seq<string>)
    requires forall i :: 0 <= i < |parts| ==> NoSeparator(parts[i])
    ensures forall i :: 0 <= i < |DropEmptyAndDot(parts)| ==> IsName(DropEmptyAndDot(parts)[i])
  {
    if parts != [] {
      DropKeepsNames(parts[1..]);
    }
  }

  /** A non-empty segment name other than `.`, without separators. */
  predicate IsName(w: string)
  {
    w != [] && w != "." && NoSeparator(w)
  }

  /** Every segment is a non-empty name other than `.`, without separators. */
  lemma SegmentsAreNames(path: string)
    ensures forall i :: 0 <= i < |Segments(path)| ==> IsName(Segments(path)[i])
  {
    SplitPiecesHaveNoSeparator(path);
    DropKeepsNames(Split(path));
  }

  /** The segments `getRelativePath` compares. */
  function Segments(path: string): seq<string>
  {
    DropEmptyAndDot(Split(path))
  }

  /** Length of the longest common prefix of two segment lists. */
  function CommonPrefixLength(a: seq<string>, b: seq<string>): (n: nat)
    ensures n <= |a| && n <= |b|
  {
    if a == [] || b == [] || a[0] != b[0] then 0
    else 1 + CommonPrefixLength(a[1..], b[1..])
  }

  /**
   * `n` is the common prefix length exactly when the first `n` segments agree and the next
   * pair (if both lists go on) differs.
   */
  lemma {:induction false} CommonPrefixLengthIs(a: seq<string>, b: seq<string>, n: nat)
    ensures CommonPrefixLength(a, b) == n <==>
              n <= |a| && n <= |b| && a[..n] == b[..n] && (n < |a| && n < |b| ==> a[n] != b[n])
    decreases n
  {
    if 0 < n <= |a| && n <= |b| {
      assert a[..n][0] == a[0] && b[..n][0] == b[0];
      if a[0] == b[0] {
        CommonPrefixLengthIs(a[1..], b[1..], n - 1);
        assert a[..n] == [a[0]] + a[1..][..n - 1];
        assert b[..n] == [b[0]] + b[1..][..n - 1];
      }
    }
  }

  /**
   * The path of `file` seen from `folder`: one `../` per folder segment beyond the common
   * prefix, then the rest of the file's segments joined with `/`.
   */
  function RelativePathOf(file: string, folder: string): string
  {
    var fb := Segments(file);
    var mb := Segments(folder);
    var i := CommonPrefixLength(fb, mb);
    (if i < |mb| then Repeat("../", |mb| - i) else []) + Join(fb[i..], "/")
  }

  /** `Path.getRelativePath`: advances over the common prefix with a counter. */
  method RelativePath(file: string, folder: string) returns (result: string)
    ensures result == RelativePathOf(file, folder)
  {
    var fb := Segments(file);
    var mb := Segments(folder);
    var i := 0;
    while i < |mb| && i < |fb| && fb[i] == mb[i]
      invariant i <= |mb| && i <= |fb|
      invariant forall k :: 0 <= k < i ==> fb[k] == mb[k]
    {
      i := i + 1;
    }
    assert fb[..i] == mb[..i];
    CommonPrefixLengthIs(fb, mb, i);
    result := Join(fb[i..], "/");
    if i < |mb| {
      result := Repeat("../", |mb| - i) + result;
    }
  }

  // ---------------------------------------------------------------------------------------
  // Properties of the relative path

  predicate NoBackslash(s: string)
  {
    forall i :: 0 <= i < |s| ==> s[i] != '\\'
  }

  lemma {:induction false} NoBackslashConcat(a: string, b: string)
    requires NoBackslash(a) && NoBackslash(b)
    ensures NoBackslash(a + b)
  {
    forall i | 0 <= i < |a + b| ensures (a + b)[i] != '\\' {
      if i < |a| { assert (a + b)[i] == a[i]; } else { assert (a + b)[i] == b[i - |a|]; }
    }
  }

  lemma {:induction false} RepeatNoBackslash(n: nat)
    ensures NoBackslash(Repeat("../", n))
  {
    if n > 0 {
      RepeatNoBackslash(n - 1);
      NoBackslashConcat("../", Repeat("../", n - 1));
    }
  }

  lemma {:induction false} JoinNoBackslash(parts: seq<string>)
    requires forall i :: 0 <= i < |parts| ==> IsName(parts[i])
    ensures NoBackslash(Join(parts, "/"))
  {
    if |parts| == 1 {
      assert IsName(parts[0]);
    } else if |parts| > 1 {
      JoinNoBackslash(parts[1..]);
      assert IsName(parts[0]);
      NoBackslashConcat(parts[0], "/");
      NoBackslashConcat(parts[0] + "/", Join(parts[1..], "/"));
    }
  }

  /** The relative path is always written with `/`, whatever separators the inputs use. */
  lemma RelativePathUsesSlashes(file: string, folder: string)
    ensures NoBackslash(RelativePathOf(file, folder))
  {
    var fb := Segments(file);
    var mb := Segments(folder);
    var i := CommonPrefixLength(fb, mb);
    SegmentsAreNames(file);
    JoinTailNoBackslash(fb, i);
    RepeatNoBackslash(|mb| - i);
    NoBackslashConcat(if i < |mb| then Repeat("../", |mb| - i) else [], Join(fb[i..], "/"));
  }

  lemma JoinTailNoBackslash(names: seq<string>, i: nat)
    requires i <= |names|
    requires forall k :: 0 <= k < |names| ==> IsName(names[k])
    ensures NoBackslash(Join(names[i..], "/"))
  {
    assert forall k :: 0 <= k < |names[i..]| ==> names[i..][k] == names[i + k];
    JoinNoBackslash(names[i..]);
  }

  /** A file inside the folder is reached without any `../`. */
  lemma RelativePathBelowFolder(file: string, folder: string)
    requires |Segments(folder)| <= |Segments(file)|
    requires Segments(file)[..|Segments(folder)|] == Segments(folder)
    ensures RelativePathOf(file, folder) == Join(Segments(file)[|Segments(folder)|..], "/")
  {
    var fb, mb := Segments(file), Segments(folder);
    assert fb[..|mb|] == mb[..|mb|];
    CommonPrefixLengthIs(fb, mb, |mb|);
  }

  /** Splitting stops at the first separator. */
  lemma {:induction false} SplitAtSeparator(w: string, c: char, rest: string)
    requires NoSeparator(w) && IsSeparator(c)
    ensures Split(w + [c] + rest) == [w] + Split(rest)
  {
    if w == [] {
      assert w + [c] + rest == [c] + rest;
      assert ([c] + rest)[1..] == rest;
    } else {
      assert (w + [c] + rest)[1..] == w[1..] + [c] + rest;
      SplitAtSeparator(w[1..], c, rest);
      assert [w[0]] + w[1..] == w;
    }
  }

  /** A piece without separators is one segment. */
  lemma {:induction false} SplitWord(w: string)
    requires NoSeparator(w)
    ensures Split(w) == [w]
  {
    if w != [] {
      SplitWord(w[1..]);
      assert [w[0]] + w[1..] == w;
    }
  }

  /** Splitting a `/`-joined list of separator-free pieces gives the pieces back. */
  lemma {:induction false} SplitJoin(pieces: seq<string>)
    requires |pieces| >= 1
    requires forall i :: 0 <= i < |pieces| ==> NoSeparator(pieces[i])
    ensures Split(Join(pieces, "/")) == pieces
  {
    if |pieces| == 1 {
      SplitWord(pieces[0]);
    } else {
      SplitJoin(pieces[1..]);
      assert NoSeparator(pieces[0]);
      SplitAtSeparator(pieces[0], '/', Join(pieces[1..], "/"));
      assert [pieces[0]] + pieces[1..] == pieces;
    }
  }

  lemma {:induction false} DropAppendEmpty(parts: seq<string>)
    ensures DropEmptyAndDot(parts + [""]) == DropEmptyAndDot(parts)
  {
    if parts == [] {
      assert parts + [""] == [""];
    } else {
      assert (parts + [""])[1..] == parts[1..] + [""];
      DropAppendEmpty(parts[1..]);
    }
  }

  /** Names pass the filter unchanged. */
  lemma {:induction false} DropKeepsAllNames(names: seq<string>)
    requires forall i :: 0 <= i < |names| ==> IsName(names[i])
    ensures DropEmptyAndDot(names) == names
  {
    if names != [] {
      DropKeepsAllNames(names[1..]);
      assert IsName(names[0]);
    }
  }

  lemma ExampleNames()
    ensures IsName("a") && IsName("b") && IsName("c.tex") && IsName("x.tex")
  {
  }

  lemma SegmentsOfFolderAB(path: string)
    requires path == "/a/b/"
    ensures Segments(path) == ["a", "b"]
  {
    assert Join(["", "a", "b", ""], "/") == "/a/b/";
    SplitJoin(["", "a", "b", ""]);
    ExampleNames();
    DropKeepsAllNames(["a", "b"]);
    assert ["", "a", "b", ""] == [""] + (["a", "b"] + [""]);
    DropAppendEmpty(["a", "b"]);
  }

  lemma SegmentsOfFileABC(path: string)
    requires path == "/a/b/c.tex"
    ensures Segments(path) == ["a", "b", "c.tex"]
  {
    ExampleNames();
    DropKeepsAllNames(["a", "b", "c.tex"]);
    assert DropEmptyAndDot(["", "a", "b", "c.tex"]) == ["a", "b", "c.tex"] by {
      assert ["", "a", "b", "c.tex"][1..] == ["a", "b", "c.tex"];
    }
    assert Join(["", "a", "b", "c.tex"], "/") == "/a/b/c.tex";
    SplitJoin(["", "a", "b", "c.tex"]);
  }

  lemma SegmentsOfFileAX(path: string)
    requires path == "/a/x.tex"
    ensures Segments(path) == ["a", "x.tex"]
  {
    ExampleNames();
    DropKeepsAllNames(["a", "x.tex"]);
    assert DropEmptyAndDot(["", "a", "x.tex"]) == ["a", "x.tex"] by {
      assert ["", "a", "x.tex"][1..] == ["a", "x.tex"];
    }
    assert Join(["", "a", "x.tex"], "/") == "/a/x.tex";
    SplitJoin(["", "a", "x.tex"]);
  }

  lemma CommonPrefixOfExamples()
    ensures CommonPrefixLength(["a", "b", "c.tex"], ["a", "b"]) == 2
    ensures CommonPrefixLength(["a", "x.tex"], ["a", "b"]) == 1
  {
  }

  /** The relative path in terms of already computed segment lists. */
  lemma RelativePathOfSegments(file: string, folder: string, fb: seq<string>, mb: seq<string>, i: nat)
    requires Segments(file) == fb && Segments(folder) == mb && CommonPrefixLength(fb, mb) == i
    ensures RelativePathOf(file, folder) == (if i < |mb| then Repeat("../", |mb| - i) else []) + Join(fb[i..], "/")
  {
    var up := if i < |mb| then Repeat("../", |mb| - i) else [];
    var down := Join(fb[i..], "/");
    assert RelativePathOf(file, folder) == up + down;
  }

  /** `("/a/b/c.tex", "/a/b/")` gives `"c.tex"`. */
  lemma RelativePathExampleSameFolder(file: string, folder: string)
    requires file == "/a/b/c.tex" && folder == "/a/b/"
    ensures RelativePathOf(file, folder) == "c.tex"
  {
    SegmentsOfFolderAB(folder);
    SegmentsOfFileABC(file);
    CommonPrefixOfExamples();
    RelativePathOfSegments(file, folder, ["a", "b", "c.tex"], ["a", "b"], 2);
    assert ["a", "b", "c.tex"][2..] == ["c.tex"];
    assert Join(["c.tex"], "/") == "c.tex";
  }

  /** `("/a/x.tex", "/a/b/")` gives `"../x.tex"`. */
  lemma RelativePathExampleParentFolder(file: string, folder: string)
    requires file == "/a/x.tex" && folder == "/a/b/"
    ensures RelativePathOf(file, folder) == "../x.tex"
  {
    SegmentsOfFolderAB(folder);
    SegmentsOfFileAX(file);
    CommonPrefixOfExamples();
    RelativePathOfSegments(file, folder, ["a", "x.tex"], ["a", "b"], 1);
    assert ["a", "x.tex"][1..] == ["x.tex"];
    assert Join(["x.tex"], "/") == "x.tex";
    assert Repeat("../", 1) == "../" + Repeat("../", 0) == "../";
  }
}

=== FILE: pattern.dfy ===
/**
 * The line pattern of a magic comment, `% *!TEX +<key> *= *(.+)\n` with the `i` flag, written
 * out as a matcher. The Program directive's key part is `(TS-)?program`. Case is folded the
 * ASCII way, which is exact for the ASCII letters of the pattern.
 */
module LinePattern {
  import opened Wrappers
  import opened Strings
  import opened Format

  /** The key part of a pattern: a lower-case key, optionally preceded by a legacy `TS-`. */
  datatype Pattern = Pattern(key: string, legacyPrefix: bool)

  /** A successful `exec`: where the line starts, its length with the `\n`, group `(.+)`, group `(TS-)`. */
  datatype Match = Match(index: nat, length: nat, capture: string, legacy: bool)

  /** Number of ` ` characters at position `j` and after. */
  function SpacesFrom(h: string, j: nat): (n: nat)
    requires j <= |h|
    ensures j + n <= |h|
    decreases |h| - j
  {
    if j < |h| && h[j] == ' ' then 1 + SpacesFrom(h, j + 1) else 0
  }

  /** `SpacesFrom` counts the whole run of spaces and no more. */
  lemma {:induction false} SpacesFromRun(h: string, j: nat)
    requires j <= |h|
    ensures forall k :: j <= k < j + SpacesFrom(h, j) ==> h[k] == ' '
    ensures j + SpacesFrom(h, j) < |h| ==> h[j + SpacesFrom(h, j)] != ' '
    decreases |h| - j
  {
    if j < |h| && h[j] == ' ' {
      SpacesFromRun(h, j + 1);
    }
  }

  /** Position of the first line terminator at `j` or after, or `|h|`: where `.+` has to stop. */
  function LineEnd(h: string, j: nat): (t: nat)
    requires j <= |h|
    ensures j <= t <= |h|
    decreases |h| - j
  {
    if j == |h| || IsLineTerminator(h[j]) then j else LineEnd(h, j + 1)
  }

  /** `LineEnd` stops at the first line terminator. */
  lemma {:induction false} LineEndFirstTerminator(h: string, j: nat)
    requires j <= |h|
    ensures forall k :: j <= k < LineEnd(h, j) ==> !IsLineTerminator(h[k])
    ensures LineEnd(h, j) < |h| ==> IsLineTerminator(h[LineEnd(h, j)])
    decreases |h| - j
  {
    if !(j == |h| || IsLineTerminator(h[j])) {
      LineEndFirstTerminator(h, j + 1);
    }
  }

  /** The lower-case word `w` stands at position `j`, compared case-insensitively. */
  predicate WordAt(h: string, j: nat, w: string)
  {
    j + |w| <= |h| && forall k :: 0 <= k < |w| ==> LowerChar(h[j + k]) == w[k]
  }

  /** `% *!TEX +` at `p`: the position after its last space. */
  function Lead(h: string, p: nat): (c: Option<nat>)
    ensures c.Some? ==> p < c.value <= |h|
  {
    if !(p < |h| && h[p] == '%') then None
    else
      var a := p + 1 + SpacesFrom(h, p + 1);
      if !WordAt(h, a, "!tex") then None
      else
        var nb := SpacesFrom(h, a + 4);
        if nb == 0 then None else Some(a + 4 + nb)
  }

  /** `(TS-)?<key> *=` at `c`: the position after `=`, and whether the `TS-` group took part. */
  function KeyPart(h: string, c: nat, pat: Pattern): (r: Option<(nat, bool)>)
    requires c <= |h|
    ensures r.Some? ==> c < r.value.0 <= |h|
  {
    var ts := pat.legacyPrefix && WordAt(h, c, "ts-");
    var d := if ts then c + 3 else c;
    if !WordAt(h, d, pat.key) then None
    else
      var e := d + |pat.key|;
      var f := e + SpacesFrom(h, e);
      if !(f < |h| && h[f] == '=') then None else Some((f + 1, ts))
  }

  /**
   * ` *(.+)\n` at `g`: where the capture starts and where the `\n` stands. `.+` has to reach the
   * first line terminator, which has to be `\n`; ` *` gives its last space back when nothing
   * else is left for `.+`.
   */
  function ValuePart(h: string, g: nat): (r: Option<(nat, nat)>)
    requires g <= |h|
    ensures r.Some? ==> g <= r.value.0 < r.value.1 < |h|
  {
    var t := LineEnd(h, g);
    if !(g < t < |h| && h[t] == '\n') then None
    else
      var k := SpacesFrom(h, g);
      Some((if g + k < t then g + k else t - 1, t))
  }

  /**
   * The pattern tried at position `p`. Every quantifier of the pattern is followed by a character
   * it cannot consume, so the match at `p` is unique; the only backtracking step is the one that
   * hands the last space before the end of the line to `(.+)`.
   */
  function MatchAt(h: string, p: nat, pat: Pattern): Option<Match>
  {
    match Lead(h, p)
    case None => None
    case Some(c) =>
      match KeyPart(h, c, pat)
      case None => None
      case Some((g, ts)) =>
        match ValuePart(h, g)
        case None => None
        case Some((start, t)) => Some(Match(p, t + 1 - p, h[start..t], ts))
  }

  /**
   * A match runs from a `%` to the first line terminator after it, which is a `\n`: the rest of
   * a line, not necessarily from its start, as the pattern has no `^`. The capture is the
   * non-empty text right before the `\n`, without line terminators; `(TS-)` takes part only
   * in the Program pattern.
   */
  lemma MatchAtShape(h: string, p: nat, pat: Pattern)
    ensures var r := MatchAt(h, p, pat);
      r.Some? ==> r.value.index == p && 0 < r.value.length && p + r.value.length <= |h|
    ensures var r := MatchAt(h, p, pat);
      r.Some? ==> h[p] == '%' && h[p + r.value.length - 1] == '\n'
    ensures var r := MatchAt(h, p, pat);
      r.Some? ==> r.value.capture != [] && NoLineTerminator(r.value.capture) && |r.value.capture| < r.value.length
    ensures var r := MatchAt(h, p, pat);
      r.Some? ==> r.value.capture == h[p + r.value.length - 1 - |r.value.capture|..p + r.value.length - 1]
    ensures var r := MatchAt(h, p, pat);
      r.Some? ==> r.value.legacy ==> pat.legacyPrefix
  {
    var r := MatchAt(h, p, pat);
    if r.Some? {
      var c := Lead(h, p).value;
      var (g, ts) := KeyPart(h, c, pat).value;
      var (start, t) := ValuePart(h, g).value;
      LineEndFirstTerminator(h, g);
      assert forall k :: start <= k < t ==> !IsLineTerminator(h[k]);
      assert r.value == Match(p, t + 1 - p, h[start..t], ts);
    }
  }

  /** The first position from `from` up to `hi` where `ok` holds: the scan `exec` makes. */
  function FirstWhere(ok: nat -> bool, from: nat, hi: nat): Option<nat>
    decreases hi - from
  {
    if from >= hi then None
    else if ok(from) then Some(from)
    else FirstWhere(ok, from + 1, hi)
  }

  /** The scan stops at the first position where `ok` holds, and finds none when there is none. */
  lemma {:induction false} FirstWhereIs(ok: nat -> bool, from: nat, hi: nat)
    ensures var r := FirstWhere(ok, from, hi);
      r.Some? ==> from <= r.value < hi && ok(r.value) && forall q :: from <= q < r.value ==> !ok(q)
    ensures FirstWhere(ok, from, hi).None? ==> forall q :: from <= q < hi ==> !ok(q)
    decreases hi - from
  {
    if from < hi && !ok(from) {
      FirstWhereIs(ok, from + 1, hi);
    }
  }

  /** `regex.exec(h)`: the match at the leftmost position where the pattern matches. */
  function Exec(h: string, pat: Pattern): Option<Match>
  {
    match FirstWhere((q: nat) => MatchAt(h, q, pat).Some?, 0, |h|)
    case None => None
    case Some(p) => MatchAt(h, p, pat)
  }

  /** `exec` finds a match whenever there is one, and none to the left of the one it finds. */
  lemma ExecIsLeftmost(h: string, pat: Pattern, q: nat)
    requires q < |h| && MatchAt(h, q, pat).Some?
    ensures Exec(h, pat).Some? && Exec(h, pat).value.index <= q
  {
    var ok := (q: nat) => MatchAt(h, q, pat).Some?;
    FirstWhereIs(ok, 0, |h|);
    assert ok(q);
    assert FirstWhere(ok, 0, |h|).Some?;
    var p := FirstWhere(ok, 0, |h|).value;
    MatchAtShape(h, p, pat);
  }

  /** What `exec` reports is a match at its own index, and no position before it matches. */
  lemma ExecMatchesAtIndex(h: string, pat: Pattern)
    ensures var r := Exec(h, pat);
      r.Some? ==> r.value.index < |h| && MatchAt(h, r.value.index, pat) == r
    ensures var r := Exec(h, pat);
      r.Some? ==> forall q :: 0 <= q < r.value.index ==> MatchAt(h, q, pat).None?
  {
    var ok := (q: nat) => MatchAt(h, q, pat).Some?;
    FirstWhereIs(ok, 0, |h|);
    match FirstWhere(ok, 0, |h|)
    case None =>
    case Some(p) =>
      MatchAtShape(h, p, pat);
      forall q | 0 <= q < p ensures MatchAt(h, q, pat).None? {
        assert !ok(q);
      }
  }

  /** What `exec` reports is the rest of a line of `h`, from a `%` to its `\n`, with a one-line capture. */
  lemma ExecShape(h: string, pat: Pattern)
    ensures var r := Exec(h, pat);
      r.Some? ==> (0 < r.value.length && r.value.index + r.value.length <= |h| &&
                   h[r.value.index] == '%' && h[r.value.index + r.value.length - 1] == '\n' &&
                   NoLineTerminator(r.value.capture))
  {
    ExecMatchesAtIndex(h, pat);
    var r := Exec(h, pat);
    if r.Some? {
      MatchAtShape(h, r.value.index, pat);
    }
  }

  /** A match at the very start is the one `exec` reports. */
  lemma ExecAtStart(h: string, pat: Pattern)
    requires MatchAt(h, 0, pat).Some?
    ensures Exec(h, pat) == MatchAt(h, 0, pat)
  {
    var ok := (q: nat) => MatchAt(h, q, pat).Some?;
    FirstWhereIs(ok, 0, |h|);
    assert ok(0);
    MatchAtShape(h, 0, pat);
    assert FirstWhere(ok, 0, |h|) == Some(0);
  }

  /** The value a directive keeps from a match: the trimmed capture. */
  function MatchedValue(m: Match): string
  {
    Trim(m.capture)
  }

  /** A value read from a line has nothing left to trim and stays on one line. */
  lemma MatchedValueShape(m: Match)
    requires NoLineTerminator(m.capture)
    ensures NoLineTerminator(MatchedValue(m)) && Trim(MatchedValue(m)) == MatchedValue(m)
  {
    var v := MatchedValue(m);
    TrimKeepsOneLine(m.capture);
    TrimOfTrimmed(v);
  }

  // ---------------------------------------------------------------------------------------
  // Reading back a written line

  /** A key the script uses: non-empty, lower-case ASCII letters. */
  predicate IsKeyWord(w: string)
  {
    w != [] && forall i :: 0 <= i < |w| ==> 'a' <= w[i] <= 'z'
  }

  /** A value that survives a round trip: non-empty, on one line, nothing to trim. */
  predicate IsLineValue(v: string)
  {
    v != [] && NoLineTerminator(v) && !IsSpace(v[0]) && !IsSpace(v[|v| - 1])
  }

  lemma SpacesFromIs(h: string, j: nat, n: nat)
    requires j + n <= |h|
    requires forall k :: j <= k < j + n ==> h[k] == ' '
    requires j + n < |h| && h[j + n] != ' '
    ensures SpacesFrom(h, j) == n
  {
    SpacesFromRun(h, j);
  }

  lemma {:induction false} LineEndIs(h: string, j: nat, t: nat)
    requires j <= t < |h|
    requires forall k :: j <= k < t ==> !IsLineTerminator(h[k])
    requires IsLineTerminator(h[t])
    ensures LineEnd(h, j) == t
    decreases t - j
  {
    if j < t {
      LineEndIs(h, j + 1, t);
    }
  }

  /** Where the parts of a written line stand, with what follows it. */
  lemma WrittenLineLayout(written: string, v: string, rest: string)
    ensures var h := MagicCommentLine(written, v) + rest;
      var e := 7 + |written|;
      && |MagicCommentLine(written, v)| == e + 4 + |v|
      && h[0] == '%' && h[1] == ' ' && h[2] == '!' && h[3] == 'T' && h[4] == 'e' && h[5] == 'X'
      && h[6] == ' '
      && (forall i :: 0 <= i < |written| ==> h[7 + i] == written[i])
      && h[e] == ' ' && h[e + 1] == '=' && h[e + 2] == ' '
      && (forall i :: 0 <= i < |v| ==> h[e + 3 + i] == v[i])
      && h[e + 3 + |v|] == '\n'
  {
    var h := MagicCommentLine(written, v) + rest;
    var e := 7 + |written|;
    assert h == "% !TeX " + written + " = " + v + "\n" + rest;
    forall i | 0 <= i < |written| ensures h[7 + i] == written[i] {
    }
    forall i | 0 <= i < |v| ensures h[e + 3 + i] == v[i] {
    }
  }

  /** The case-insensitive key comparison, on the key as written. */
  lemma KeyMatches(h: string, d: nat, key: string)
    requires IsKeyWord(key) && d + |key| <= |h|
    requires forall i :: 0 <= i < |key| ==> h[d + i] == key[i]
    ensures WordAt(h, d, key)
  {
  }

  /** `TS-` as written is found by the `(TS-)?` group. */
  lemma LegacyPrefixMatches(h: string, c: nat)
    requires c + 3 <= |h| && h[c] == 'T' && h[c + 1] == 'S' && h[c + 2] == '-'
    ensures WordAt(h, c, "ts-")
  {
  }

  /** The lead `% !TeX ` of a written line. */
  lemma LeadOfWrittenLine(h: string)
    requires |h| > 7 && h[0] == '%' && h[1] == ' ' && h[2] == '!' && h[3] == 'T'
    requires h[4] == 'e' && h[5] == 'X' && h[6] == ' ' && h[7] != ' '
    ensures Lead(h, 0) == Some(7)
  {
    SpacesFromIs(h, 1, 1);
    assert WordAt(h, 2, "!tex");
    SpacesFromIs(h, 6, 1);
  }

  /** The key part `<key> =` or `TS-<key> =` of a written line, the key starting at `d`. */
  lemma KeyPartOfWrittenLine(h: string, pat: Pattern, legacy: bool, d: nat)
    requires IsKeyWord(pat.key) && (legacy ==> pat.legacyPrefix)
    requires d == (if legacy then 10 else 7) && d + |pat.key| + 2 < |h|
    requires legacy ==> h[7] == 'T' && h[8] == 'S' && h[9] == '-'
    requires forall i :: 0 <= i < |pat.key| ==> h[d + i] == pat.key[i]
    requires h[d + |pat.key|] == ' ' && h[d + |pat.key| + 1] == '=' && h[d + |pat.key| + 2] == ' '
    ensures KeyPart(h, 7, pat) == Some((d + |pat.key| + 2, legacy))
  {
    var e := d + |pat.key|;
    var ts := pat.legacyPrefix && WordAt(h, 7, "ts-");
    if legacy {
      LegacyPrefixMatches(h, 7);
    } else {
      assert LowerChar(h[9]) != '-' by {
        if 2 < |pat.key| {
          assert h[9] == pat.key[2];
        } else if 2 == |pat.key| {
          assert h[9] == ' ';
        } else {
          assert h[9] == '=';
        }
      }
      assert !WordAt(h, 7, "ts-") by {
        assert "ts-"[2] == '-';
      }
    }
    assert ts == legacy;
    KeyMatches(h, d, pat.key);
    SpacesFromIs(h, e, 1);
  }

  /** The value part ` <value>` and the newline of a written line, the value starting at `s`. */
  lemma ValuePartOfWrittenLine(h: string, s: nat, v: string)
    requires IsLineValue(v) && 1 <= s && s + |v| < |h|
    requires h[s - 1] == ' ' && h[s + |v|] == '\n'
    requires forall i :: 0 <= i < |v| ==> h[s + i] == v[i]
    ensures ValuePart(h, s - 1) == Some((s, s + |v|))
    ensures h[s..s + |v|] == v
  {
    var t := s + |v|;
    assert forall k :: s - 1 <= k < t ==> !IsLineTerminator(h[k]) by {
      assert forall k :: s <= k < t ==> h[k] == v[k - s];
    }
    LineEndIs(h, s - 1, t);
    SpacesFromIs(h, s - 1, 1);
    assert h[s..t] == v;
  }

  /** A match is put together from its three parts. */
  lemma MatchFromParts(h: string, p: nat, pat: Pattern, c: nat, g: nat, ts: bool, start: nat, t: nat)
    requires Lead(h, p) == Some(c)
    requires KeyPart(h, c, pat) == Some((g, ts))
    requires ValuePart(h, g) == Some((start, t))
    ensures MatchAt(h, p, pat) == Some(Match(p, t + 1 - p, h[start..t], ts))
  {
  }

  /** The key as written, `TS-` and all, seen at the positions the key part reads. */
  lemma WrittenKeyChars(h: string, key: string, legacy: bool, d: nat, written: string)
    requires d == (if legacy then 10 else 7) && written == (if legacy then "TS-" + key else key)
    requires 7 + |written| <= |h| && forall i :: 0 <= i < |written| ==> h[7 + i] == written[i]
    ensures forall i :: 0 <= i < |key| ==> h[d + i] == key[i]
    ensures legacy ==> h[7] == 'T' && h[8] == 'S' && h[9] == '-'
  {
    if legacy {
      assert h[7] == written[0] && h[8] == written[1] && h[9] == written[2];
      forall i | 0 <= i < |key| ensures h[10 + i] == key[i] {
        assert h[7 + (3 + i)] == written[3 + i];
      }
    }
  }

  /** The pattern at the start of a text laid out like a written line, the key starting at `d`. */
  lemma MatchOfLineLayout(h: string, pat: Pattern, legacy: bool, v: string, d: nat, e: nat, n: nat)
    requires IsKeyWord(pat.key) && IsLineValue(v) && (legacy ==> pat.legacyPrefix)
    requires d == (if legacy then 10 else 7) && e == d + |pat.key| && n == e + 4 + |v| && n <= |h|
    requires h[0] == '%' && h[1] == ' ' && h[2] == '!' && h[3] == 'T' && h[4] == 'e'
    requires h[5] == 'X' && h[6] == ' '
    requires legacy ==> h[7] == 'T' && h[8] == 'S' && h[9] == '-'
    requires forall i :: 0 <= i < |pat.key| ==> h[d + i] == pat.key[i]
    requires h[e] == ' ' && h[e + 1] == '=' && h[e + 2] == ' '
    requires forall i :: 0 <= i < |v| ==> h[e + 3 + i] == v[i]
    requires h[e + 3 + |v|] == '\n'
    ensures MatchAt(h, 0, pat) == Some(Match(0, n, v, legacy))
  {
    assert h[7] != ' ' by {
      if !legacy { assert h[7] == pat.key[0]; }
    }
    assert Lead(h, 0) == Some(7) by {
      LeadOfWrittenLine(h);
    }
    assert KeyPart(h, 7, pat) == Some((e + 2, legacy)) by {
      KeyPartOfWrittenLine(h, pat, legacy, d);
    }
    assert ValuePart(h, e + 2) == Some((e + 3, e + 3 + |v|)) && h[e + 3..e + 3 + |v|] == v by {
      ValuePartOfWrittenLine(h, e + 3, v);
    }
    MatchFromParts(h, 0, pat, 7, e + 2, legacy, e + 3, e + 3 + |v|);
  }

  /**
   * Writing a line and reading it back: the pattern matches the written line at its start,
   * spans exactly that line, recovers the value, and its `(TS-)` group is set exactly when
   * the line was written with the `TS-` key.
   */
  lemma ReadBackWrittenLine(pat: Pattern, legacy: bool, v: string, rest: string)
    requires IsKeyWord(pat.key) && IsLineValue(v)
    requires legacy ==> pat.legacyPrefix
    ensures var line := MagicCommentLine(if legacy then "TS-" + pat.key else pat.key, v);
      MatchAt(line + rest, 0, pat) == Some(Match(0, |line|, v, legacy))
    ensures var line := MagicCommentLine(if legacy then "TS-" + pat.key else pat.key, v);
      Exec(line + rest, pat) == Some(Match(0, |line|, v, legacy))
    ensures MatchedValue(Match(0, |MagicCommentLine(if legacy then "TS-" + pat.key else pat.key, v)|, v, legacy)) == v
  {
    var written := if legacy then "TS-" + pat.key else pat.key;
    var line := MagicCommentLine(written, v);
    WrittenLineMatches(pat, legacy, v, rest, written, line);
    ExecAtStart(line + rest, pat);
    TrimOfTrimmed(v);
  }

  /** The pattern at the start of a written line followed by `rest`. */
  lemma WrittenLineMatches(pat: Pattern, legacy: bool, v: string, rest: string, written: string, line: string)
    requires IsKeyWord(pat.key) && IsLineValue(v) && (legacy ==> pat.legacyPrefix)
    requires written == (if legacy then "TS-" + pat.key else pat.key) && line == MagicCommentLine(written, v)
    ensures MatchAt(line + rest, 0, pat) == Some(Match(0, |line|, v, legacy))
  {
    var h := line + rest;
    var d := if legacy then 10 else 7;
    WrittenLineLayout(written, v, rest);
    WrittenKeyChars(h, pat.key, legacy, d, written);
    assert |line| == d + |pat.key| + 4 + |v|;
    MatchOfLineLayout(h, pat, legacy, v, d, d + |pat.key|, |line|);
  }

  // ---------------------------------------------------------------------------------------
  // Matching further into the text: nothing before the position tried is looked at

  lemma {:induction false} SpacesFromShift(h: string, p: nat, j: nat)
    requires p <= j <= |h|
    ensures SpacesFrom(h, j) == SpacesFrom(h[p..], j - p)
    decreases |h| - j
  {
    if j < |h| {
      assert h[p..][j - p] == h[j];
      if h[j] == ' ' {
        SpacesFromShift(h, p, j + 1);
      }
    }
  }

  lemma {:induction false} LineEndShift(h: string, p: nat, j: nat)
    requires p <= j <= |h|
    ensures LineEnd(h, j) == p + LineEnd(h[p..], j - p)
    decreases |h| - j
  {
    if j < |h| {
      assert h[p..][j - p] == h[j];
      if !IsLineTerminator(h[j]) {
        LineEndShift(h, p, j + 1);
      }
    }
  }

  lemma WordAtShift(h: string, p: nat, j: nat, w: string)
    requires p <= j && p <= |h|
    ensures WordAt(h, j, w) == WordAt(h[p..], j - p, w)
  {
    var d := h[p..];
    forall i | j <= i < |h| ensures d[i - p] == h[i] {
    }
  }

  lemma LeadShift(h: string, p: nat)
    requires p <= |h|
    ensures var r := Lead(h[p..], 0);
      Lead(h, p) == if r.None? then None else Some(p + r.value)
  {
    if p < |h| && h[p] == '%' {
      var d := h[p..];
      assert d[0] == '%';
      SpacesFromShift(h, p, p + 1);
      var a := p + 1 + SpacesFrom(h, p + 1);
      WordAtShift(h, p, a, "!tex");
      if WordAt(h, a, "!tex") {
        SpacesFromShift(h, p, a + 4);
      }
    }
  }

  lemma KeyPartShift(h: string, p: nat, c: nat, pat: Pattern)
    requires p <= c <= |h|
    ensures var r := KeyPart(h[p..], c - p, pat);
      KeyPart(h, c, pat) == if r.None? then None else Some((p + r.value.0, r.value.1))
  {
    WordAtShift(h, p, c, "ts-");
    var ts := pat.legacyPrefix && WordAt(h, c, "ts-");
    var d := if ts then c + 3 else c;
    WordAtShift(h, p, d, pat.key);
    if WordAt(h, d, pat.key) {
      var e := d + |pat.key|;
      SpacesFromShift(h, p, e);
      var f := e + SpacesFrom(h, e);
      if f < |h| {
        assert h[p..][f - p] == h[f];
      }
    }
  }

  lemma ValuePartShift(h: string, p: nat, g: nat)
    requires p <= g <= |h|
    ensures var r := ValuePart(h[p..], g - p);
      ValuePart(h, g) == if r.None? then None else Some((p + r.value.0, p + r.value.1))
  {
    LineEndShift(h, p, g);
    SpacesFromShift(h, p, g);
    var t := LineEnd(h, g);
    if t < |h| {
      assert h[p..][t - p] == h[t];
    }
  }

  /** The pattern tried at `p` is the pattern tried at the start of `h[p..]`, moved by `p`. */
  lemma MatchAtShift(h: string, p: nat, pat: Pattern)
    requires p <= |h|
    ensures var r := MatchAt(h[p..], 0, pat);
      MatchAt(h, p, pat) == if r.None? then None else Some(r.value.(index := p))
  {
    var d := h[p..];
    LeadShift(h, p);
    if Lead(h, p).None? {
      assert Lead(d, 0).None?;
    } else {
      var c := Lead(h, p).value;
      assert Lead(d, 0) == Some(c - p);
      KeyPartShift(h, p, c, pat);
      if KeyPart(h, c, pat).None? {
        assert KeyPart(d, c - p, pat).None?;
      } else {
        var (g, ts) := KeyPart(h, c, pat).value;
        assert KeyPart(d, c - p, pat) == Some((g - p, ts));
        ValuePartShift(h, p, g);
        if ValuePart(h, g).None? {
          assert ValuePart(d, g - p).None?;
        } else {
          var (start, t) := ValuePart(h, g).value;
          assert ValuePart(d, g - p) == Some((start - p, t - p));
          assert h[start..t] == d[start - p..t - p];
          MatchFromParts(h, p, pat, c, g, ts, start, t);
          MatchFromParts(d, 0, pat, c - p, g - p, ts, start - p, t - p);
        }
      }
    }
  }

  /** A written line standing at `p`, whatever comes before or after it, is matched there. */
  lemma ReadBackWrittenLineAt(h: string, p: nat, pat: Pattern, legacy: bool, v: string)
    requires IsKeyWord(pat.key) && IsLineValue(v)
    requires legacy ==> pat.legacyPrefix
    requires var line := MagicCommentLine(if legacy then "TS-" + pat.key else pat.key, v);
      p + |line| <= |h| && h[p..p + |line|] == line
    ensures var line := MagicCommentLine(if legacy then "TS-" + pat.key else pat.key, v);
      MatchAt(h, p, pat) == Some(Match(p, |line|, v, legacy))
  {
    var line := MagicCommentLine(if legacy then "TS-" + pat.key else pat.key, v);
    var rest := h[p + |line|..];
    assert h[p..] == line + rest;
    ReadBackWrittenLine(pat, legacy, v, rest);
    MatchAtShift(h, p, pat);
  }

  /** The pattern has no `^`: a line with text before its `%` is matched from the `%` on. */
  lemma MatchAfterLeadingText()
    ensures MatchAt("x % !TeX root = a\n", 2, Pattern("root", false)) == Some(Match(2, 16, "a", false))
  {
    var h := "x % !TeX root = a\n";
    assert h[2..2 + 16] == MagicCommentLine("root", "a");
    ReadBackWrittenLineAt(h, 2, Pattern("root", false), false, "a");
  }
}

=== FILE: session.dfy ===
/**
 * One run of the script over a document: the four directives, the TeXShop compatibility
 * switch, and the document text; reading the directives from the header, taking the
 * dialog's answers, and writing the lines back.
 */
module Session {
  import opened Wrappers
  import opened Strings
  import opened LinePattern
  import opened Directives
  import opened Edits

  /** `PEEK_LENGTH`: the number of characters at the start of the document the reader looks at. */
  const PeekLength: nat := 1024

  /** The kinds of the directives, in the order the script registers them. */
  const Registry: seq<Kind> := [Encoding, Program, Root, Spellcheck]

  /** The part of the document the reader searches. */
  function Header(text: string): (h: string)
    ensures |h| <= PeekLength && |h| <= |text| && h == text[..|h|]
    ensures |h| == PeekLength || h == text
  {
    if |text| <= PeekLength then text else text[..PeekLength]
  }

  /** What the reader and the writer need of a directive: its kind, its value and where its line was found. */
  datatype Entry = Entry(kind: Kind, value: string, span: Option<Span>)

  function EntryOf(o: MagicComment): (d: Entry)
    reads o
    ensures d.kind == o.kind && d.value == o.value && d.span == o.span
  {
    Entry(o.kind, o.value, o.span)
  }

  /** The directives' entries, in their order. */
  function Entries(os: seq<MagicComment>): (ds: seq<Entry>)
    reads os
    ensures |ds| == |os| && forall k :: 0 <= k < |os| ==> ds[k] == EntryOf(os[k])
  {
    if os == [] then [] else [EntryOf(os[0])] + Entries(os[1..])
  }

  // ---------------------------------------------------------------------------------------
  // Reading

  /** The search for the `program` directive gave `r`, written in the `TS-program` form. */
  predicate LegacyMatch(kind: Kind, r: Option<Match>)
  {
    kind == Program && r.Some? && r.value.legacy
  }

  /** The value a directive has after a search that gave `r`: the match's, or the one it had. */
  function ReadValue(r: Option<Match>, value: string): string
  {
    if r.Some? then MatchedValue(r.value) else value
  }

  /** Where a directive's line is after a search that gave `r`: the match's place, or what it had. */
  function ReadSpan(r: Option<Match>, span: Option<Span>): Option<Span>
  {
    if r.Some? then Some(Span(r.value.index, r.value.length)) else span
  }

  /**
   * `ms` are the searches in `header` with the patterns `ps`, and `vs`, `ss` and `ls` the values,
   * places and `TS-` forms that directives with the entries `ds` take from them.
   */
  predicate ReadPlanned(ps: seq<Pattern>, ds: seq<Entry>, header: string,
                        ms: seq<Option<Match>>, vs: seq<string>, ss: seq<Option<Span>>, ls: seq<bool>)
  {
    |ps| == |ds| && |ms| == |ds| && |vs| == |ds| && |ss| == |ds| && |ls| == |ds| &&
    forall k {:trigger ms[k]} :: 0 <= k < |ds| ==>
      ms[k] == Exec(header, ps[k]) && vs[k] == ReadValue(ms[k], ds[k].value) &&
      ss[k] == ReadSpan(ms[k], ds[k].span) && ls[k] == LegacyMatch(ds[k].kind, ms[k])
  }

  /**
   * A directive whose pattern matches in the header takes the match's value and place: the
   * place runs from a `%` to the `\n` that ends its line, inside the header; the value
   * has nothing to trim and no line terminator.
   */
  lemma ReadFindsLine(text: string, pat: Pattern)
    ensures var h, r := Header(text), Exec(Header(text), pat);
      r.Some? ==>
        var m := r.value;
        0 < m.length && m.index + m.length <= |h| && m.index + m.length <= PeekLength &&
        text[m.index] == '%' && text[m.index + m.length - 1] == '\n' &&
        NoLineTerminator(MatchedValue(m)) && Trim(MatchedValue(m)) == MatchedValue(m)
  {
    var h := Header(text);
    ExecShape(h, pat);
    var r := Exec(h, pat);
    if r.Some? {
      var m := r.value;
      MatchedValueShape(m);
      var last := m.index + m.length - 1;
      assert text[last] == h[last] && text[m.index] == h[m.index];
    }
  }

  /** The `TS-` form is only ever matched by the Program pattern. */
  lemma LegacyOnlyForProgram(kind: Kind, h: string)
    ensures var r := Exec(h, PatternOf(kind)); r.Some? && r.value.legacy ==> kind == Program
  {
    ExecMatchesAtIndex(h, PatternOf(kind));
    var r := Exec(h, PatternOf(kind));
    if r.Some? {
      MatchAtShape(h, r.value.index, PatternOf(kind));
    }
  }

  // ---------------------------------------------------------------------------------------
  // Writing

  /** `rep` of a found directive: its comment line when it has a value, else nothing. */
  function Replacement(kind: Kind, value: string, compat: bool): string
  {
    if value != "" then CommentLine(kind, value, compat) else ""
  }

  /** What a directive that was not found adds: its line, when it still has a value after serialising. */
  function Addition(kind: Kind, value: string, compat: bool): string
  {
    if value != "" && ValueAfterComment(kind, value, compat) != "" then CommentLine(kind, value, compat) else ""
  }

  /** The value a directive keeps after writing. */
  function ValueAfterWrite(kind: Kind, value: string, compat: bool): string
  {
    if value != "" then ValueAfterComment(kind, value, compat) else value
  }


  /** The edit a directive stands for: its line replaced, or a line added. */
  function EditOf(d: Entry, compat: bool): (e: Edit)
    ensures e.span == d.span
  {
    Edit(d.span, if d.span.Some? then Replacement(d.kind, d.value, compat) else Addition(d.kind, d.value, compat))
  }

  /** The edits of the directives, in their order. */
  function Plan(ds: seq<Entry>, compat: bool): (r: seq<Edit>)
    ensures |r| == |ds| && forall k :: 0 <= k < |ds| ==> r[k].span == ds[k].span
  {
    if ds == [] then [] else [EditOf(ds[0], compat)] + Plan(ds[1..], compat)
  }

  /** The values the directives keep after writing, in their order. */
  function Settled(ds: seq<Entry>, compat: bool): (r: seq<string>)
    ensures |r| == |ds|
  {
    if ds == [] then [] else [ValueAfterWrite(ds[0].kind, ds[0].value, compat)] + Settled(ds[1..], compat)
  }

  /** `plan` and `after` are the edits and the values the writer produces for `ds`. */
  predicate Planned(ds: seq<Entry>, compat: bool, plan: seq<Edit>, after: seq<string>)
  {
    |plan| == |ds| && |after| == |ds| &&
    forall k {:trigger EditOf(ds[k], compat)} :: 0 <= k < |ds| ==>
      plan[k] == EditOf(ds[k], compat) && after[k] == ValueAfterWrite(ds[k].kind, ds[k].value, compat)
  }

  lemma {:induction false} PlanIsPlanned(ds: seq<Entry>, compat: bool)
    ensures Planned(ds, compat, Plan(ds, compat), Settled(ds, compat))
  {
    if ds != [] {
      PlanIsPlanned(ds[1..], compat);
      var plan, after := Plan(ds, compat), Settled(ds, compat);
      forall k | 0 <= k < |ds| ensures plan[k] == EditOf(ds[k], compat) && after[k] == ValueAfterWrite(ds[k].kind, ds[k].value, compat) {
        if k > 0 {
          assert ds[k] == ds[1..][k - 1];
          assert EditOf(ds[1..][k - 1], compat) == EditOf(ds[k], compat);
        }
      }
    }
  }

  /** `Index` of `a` below that of `b`: the comparison of the writer's sort, found before not found. */
  predicate Before(a: Option<Span>, b: Option<Span>)
  {
    a.Some? && (b.None? || a.value.index < b.value.index)
  }

  /** Puts `x` after every element of `s` that does not sort after it. */
  function Insert(x: MagicComment, s: seq<MagicComment>): (r: seq<MagicComment>)
    reads x, s
    ensures |r| == |s| + 1 && x in r
    ensures (forall o :: o in r ==> o == x || o in s) && (forall o :: o in s ==> o in r)
    ensures multiset(r) == multiset(s) + multiset{x}
  {
    if s == [] || Before(x.span, s[0].span) then [x] + s
    else assert s == [s[0]] + s[1..]; [s[0]] + Insert(x, s[1..])
  }

  /** The writer's stable sort: found directives by ascending `Index`, then the rest. */
  function SortedForWriting(ds: seq<MagicComment>): (r: seq<MagicComment>)
    reads set o | o in ds
    ensures |r| == |ds| && (forall o :: o in r ==> o in ds) && (forall o :: o in ds ==> o in r)
  {
    if ds == [] then [] else Insert(ds[|ds| - 1], SortedForWriting(ds[..|ds| - 1]))
  }

  predicate Distinct(ds: seq<MagicComment>)
  {
    forall j, k :: 0 <= j < k < |ds| ==> ds[j] != ds[k]
  }

  /** No directive sorts before one that precedes it. */
  predicate InWritingOrder(ds: seq<MagicComment>)
    reads ds
  {
    forall j, k :: 0 <= j < k < |ds| ==> !Before(ds[k].span, ds[j].span)
  }

  /** A found line is non-empty and lies inside a text of length `n`. */
  predicate Fits(span: Option<Span>, n: nat)
  {
    span.Some? ==> 0 < span.value.length && span.value.index + span.value.length <= n
  }

  predicate SpansFit(ds: seq<Entry>, n: nat)
  {
    forall k :: 0 <= k < |ds| ==> Fits(ds[k].span, n)
  }

  /** No two found lines overlap. */
  predicate SpansDisjoint(ds: seq<Entry>)
  {
    forall j, k :: 0 <= j < k < |ds| && ds[j].span.Some? && ds[k].span.Some? ==>
      ds[j].span.value.index + ds[j].span.value.length <= ds[k].span.value.index ||
      ds[k].span.value.index + ds[k].span.value.length <= ds[j].span.value.index
  }

  /** No entry sorts before one that precedes it. */
  predicate Ordered(ds: seq<Entry>)
  {
    forall j, k :: 0 <= j < k < |ds| ==> !Before(ds[k].span, ds[j].span)
  }

  lemma {:induction false} InsertFacts(x: MagicComment, s: seq<MagicComment>)
    ensures Distinct(s) && x !in s ==> Distinct(Insert(x, s))
    ensures InWritingOrder(s) ==> InWritingOrder(Insert(x, s))
  {
    var r := Insert(x, s);
    if s == [] || Before(x.span, s[0].span) {
      assert r == [x] + s;
      if InWritingOrder(s) {
        forall k | 0 < k < |r| ensures !Before(r[k].span, x.span) {
          assert r[k] == s[k - 1];
          assert !Before(s[k - 1].span, s[0].span);
        }
      }
    } else {
      var rest := Insert(x, s[1..]);
      InsertFacts(x, s[1..]);
      assert r == [s[0]] + rest;
      if Distinct(s) && x !in s {
        assert s[0] !in s[1..];
        assert s[0] !in rest;
        forall j, k | 0 <= j < k < |r| ensures r[j] != r[k] {
          if j > 0 {
            assert r[j] == rest[j - 1] && r[k] == rest[k - 1];
          }
        }
      }
      if InWritingOrder(s) {
        assert InWritingOrder(s[1..]);
        forall k | 0 < k < |r| ensures !Before(r[k].span, s[0].span) {
          assert r[k] == rest[k - 1] && rest[k - 1] in rest;
        }
        forall j, k | 0 < j < k < |r| ensures !Before(r[k].span, r[j].span) {
          assert r[j] == rest[j - 1] && r[k] == rest[k - 1];
        }
      }
    }
  }

  /** The sort rearranges its input: the same directives, each as often. */
  lemma {:induction false} SortPermutes(ds: seq<MagicComment>)
    ensures multiset(SortedForWriting(ds)) == multiset(ds)
  {
    if ds != [] {
      var init, x := ds[..|ds| - 1], ds[|ds| - 1];
      SortPermutes(init);
      assert ds == init + [x];
    }
  }

  /** The sort is a permutation into writing order. */
  lemma {:induction false} SortFacts(ds: seq<MagicComment>)
    ensures |SortedForWriting(ds)| == |ds| && multiset(SortedForWriting(ds)) == multiset(ds)
    ensures Distinct(ds) ==> Distinct(SortedForWriting(ds))
    ensures InWritingOrder(SortedForWriting(ds))
  {
    SortPermutes(ds);
    if ds != [] {
      var init, x := ds[..|ds| - 1], ds[|ds| - 1];
      SortFacts(init);
      InsertFacts(x, SortedForWriting(init));
      if Distinct(ds) {
        forall k | 0 <= k < |init| ensures init[k] != x {
          assert init[k] == ds[k];
        }
      }
    }
  }

  /** Directives drawn from `os` have lines inside the text when those of `os` have. */
  lemma FitsKept(os: seq<MagicComment>, r: seq<MagicComment>, n: nat)
    requires (forall o :: o in r ==> o in os) && SpansFit(Entries(os), n)
    ensures SpansFit(Entries(r), n)
  {
    var es, ds := Entries(os), Entries(r);
    forall k | 0 <= k < |ds| ensures Fits(ds[k].span, n) {
      assert r[k] in os;
      var k' :| 0 <= k' < |os| && os[k'] == r[k];
      assert ds[k] == es[k'];
    }
  }

  /** Distinct directives drawn from `os` have disjoint lines when those of `os` have. */
  lemma DisjointKept(os: seq<MagicComment>, r: seq<MagicComment>)
    requires Distinct(r) && (forall o :: o in r ==> o in os) && SpansDisjoint(Entries(os))
    ensures SpansDisjoint(Entries(r))
  {
    var es, ds := Entries(os), Entries(r);
    forall j, k | 0 <= j < k < |ds| && ds[j].span.Some? && ds[k].span.Some?
      ensures ds[j].span.value.index + ds[j].span.value.length <= ds[k].span.value.index ||
              ds[k].span.value.index + ds[k].span.value.length <= ds[j].span.value.index
    {
      assert r[j] in os && r[k] in os;
      var j' :| 0 <= j' < |os| && os[j'] == r[j];
      var k' :| 0 <= k' < |os| && os[k'] == r[k];
      assert ds[j] == es[j'] && ds[k] == es[k'];
      assert j' != k';
    }
  }

  /** The sort keeps what the writer needs of the directives and puts them in writing order. */
  lemma SortKeeps(os: seq<MagicComment>, n: nat)
    requires Distinct(os) && SpansFit(Entries(os), n) && SpansDisjoint(Entries(os))
    ensures var r := SortedForWriting(os);
      Distinct(r) && Ordered(Entries(r)) && SpansFit(Entries(r), n) && SpansDisjoint(Entries(r))
  {
    var r := SortedForWriting(os);
    SortFacts(os);
    FitsKept(os, r, n);
    DisjointKept(os, r);
    var ds := Entries(r);
    forall j, k | 0 <= j < k < |ds| ensures !Before(ds[k].span, ds[j].span) {
      assert ds[j] == EntryOf(r[j]) && ds[k] == EntryOf(r[k]);
    }
  }

  /**
   * Entries in writing order with disjoint lines inside the text give edits the writer
   * can apply: found ones first, one after another, then the rest.
   */
  lemma OrderedIsArranged(ds: seq<Entry>, n: nat, es: seq<Edit>)
    requires Ordered(ds) && SpansFit(ds, n) && SpansDisjoint(ds)
    requires |es| == |ds| && forall k :: 0 <= k < |es| ==> es[k].span == ds[k].span
    ensures Arranged(es, n)
  {
    var m := FoundCount(es);
    FoundCountIs(es);
    forall k | m < k < |es| ensures es[k].span.None? {
      assert !Before(ds[k].span, ds[m].span);
    }
    var fs := es[..m];
    forall k | 0 <= k < m ensures fs[k].span.Some? && EndOf(fs[k]) <= n {
      assert fs[k] == es[k];
    }
    forall j, k | 0 <= j < k < m ensures EndOf(fs[j]) <= fs[k].span.value.index {
      assert fs[j] == es[j] && fs[k] == es[k];
      assert !Before(ds[k].span, ds[j].span);
    }
    assert Chain(fs, n);
  }

  // ---------------------------------------------------------------------------------------
  // Reading, then writing, a header the writer wrote

  /** `line` stands at position `p` of `h`. */
  predicate LineAt(h: string, p: nat, line: string)
  {
    p + |line| <= |h| && h[p..p + |line|] == line
  }

  /** A value the writer writes as it is and the reader reads back as it is. */
  predicate CanonicalValue(kind: Kind, v: string, compat: bool)
  {
    IsLineValue(v) && WrittenValue(kind, v, compat) == v
  }

  /** The line the reader finds for `kind`, if it finds one, is the writer's line for a canonical value. */
  ghost predicate CanonicalHeader(t: string, kind: Kind, compat: bool)
  {
    var m := Exec(Header(t), PatternOf(kind));
    m.Some? ==> exists v :: CanonicalValue(kind, v, compat) && LineAt(Header(t), m.value.index, CommentLine(kind, v, compat))
  }

  /** What the reader makes of a directive of kind `kind` that had no value and no line. */
  function ReadEntry(t: string, kind: Kind): Entry
  {
    var m := Exec(Header(t), PatternOf(kind));
    Entry(kind, ReadValue(m, ""), ReadSpan(m, None))
  }

  /** The compatibility switch after reading into a fresh session: the `TS-program` form was found. */
  function ReadCompat(t: string): bool
  {
    LegacyMatch(Program, Exec(Header(t), PatternOf(Program)))
  }

  /** The directives of a fresh session after reading, in registry order. */
  function ReadEntries(t: string): (ds: seq<Entry>)
    ensures |ds| == |Registry| && forall k :: 0 <= k < |Registry| ==> ds[k] == ReadEntry(t, Registry[k])
  {
    [ReadEntry(t, Encoding), ReadEntry(t, Program), ReadEntry(t, Root), ReadEntry(t, Spellcheck)]
  }

  /**
   * The writer leaves `t` as it is for `d`: a found line is the line written for the
   * directive's value, which is not empty, and a directive that was not found has no value.
   */
  predicate Canonical(t: string, d: Entry, compat: bool)
  {
    if d.span.Some? then
      d.value != "" && Fits(d.span, |t|) &&
      t[d.span.value.index..d.span.value.index + d.span.value.length] == CommentLine(d.kind, d.value, compat)
    else d.value == ""
  }

  /**
   * Wherever in the header the reader finds the writer's line for `v`, it reads the value
   * written for `v`, spans exactly that line, and sees `TS-` exactly for `program` in
   * TeXShop mode.
   */
  lemma ReadOfWrittenLine(t: string, kind: Kind, v: string, compat: bool)
    requires IsLineValue(WrittenValue(kind, v, compat))
    requires var m := Exec(Header(t), PatternOf(kind));
      m.Some? && LineAt(Header(t), m.value.index, CommentLine(kind, v, compat))
    ensures var m := Exec(Header(t), PatternOf(kind));
      m == Some(Match(m.value.index, |CommentLine(kind, v, compat)|, WrittenValue(kind, v, compat), kind == Program && compat)) &&
      MatchedValue(m.value) == WrittenValue(kind, v, compat)
  {
    var h, pat := Header(t), PatternOf(kind);
    var m := Exec(h, pat);
    var p := m.value.index;
    var line, w := CommentLine(kind, v, compat), WrittenValue(kind, v, compat);
    assert MatchAt(h, p, pat) == Some(Match(p, |line|, w, kind == Program && compat)) by {
      assert LineAt(h, p, line);
      CommentLineReadsBackAt(kind, v, compat, h, p, line);
    }
    ExecMatchesAtIndex(h, pat);
    assert MatchedValue(m.value) == w by {
      CommentLineReadsBack(kind, v, compat, []);
    }
  }

  /** A line of the header is a line of the document. */
  lemma HeaderLineIsLine(t: string, p: nat, line: string)
    requires LineAt(Header(t), p, line)
    ensures LineAt(t, p, line)
  {
    var h := Header(t);
    assert t[p..p + |line|] == h[p..p + |line|];
  }

  /** The writer's line for a non-empty value, standing at `p`, is what the writer leaves alone. */
  lemma CanonicalOfLine(t: string, kind: Kind, v: string, compat: bool, p: nat, line: string)
    requires v != "" && 0 < |line| && line == CommentLine(kind, v, compat) && LineAt(t, p, line)
    ensures Canonical(t, Entry(kind, v, Some(Span(p, |line|))), compat)
  {
  }

  /** A comment line is never empty: it starts with `%`. */
  lemma CommentLineNotEmpty(kind: Kind, v: string, compat: bool)
    ensures 0 < |CommentLine(kind, v, compat)|
  {
    assert CommentLine(kind, v, compat)[0] == '%';
  }

  /** A header in the writer's form is read into entries the writer leaves as they are. */
  lemma ReadIsCanonical(t: string, kind: Kind, compat: bool)
    requires CanonicalHeader(t, kind, compat)
    ensures Canonical(t, ReadEntry(t, kind), compat)
    ensures var m := Exec(Header(t), PatternOf(kind)); m.Some? ==> m.value.legacy == (kind == Program && compat)
  {
    var h := Header(t);
    var m := Exec(h, PatternOf(kind));
    if m.Some? {
      var p := m.value.index;
      var v :| CanonicalValue(kind, v, compat) && LineAt(h, p, CommentLine(kind, v, compat));
      var line := CommentLine(kind, v, compat);
      ReadOfWrittenLine(t, kind, v, compat);
      assert m.value == Match(p, |line|, v, kind == Program && compat);
      assert ReadEntry(t, kind) == Entry(kind, v, Some(Span(p, |line|)));
      HeaderLineIsLine(t, p, line);
      CommentLineNotEmpty(kind, v, compat);
      CanonicalOfLine(t, kind, v, compat, p, line);
    }
  }

  /** The edit of an entry the writer leaves alone puts back the line that is there, or adds nothing. */
  lemma CanonicalEdit(t: string, d: Entry, compat: bool)
    requires Canonical(t, d, compat)
    ensures Fits(d.span, |t|)
    ensures var e := EditOf(d, compat);
      (e.span.Some? ==> EndOf(e) <= |t| && e.line == t[e.span.value.index..EndOf(e)]) &&
      (e.span.None? ==> e.line == "")
  {
  }

  /**
   * Edits for entries in writing order, with disjoint lines, each already written the way
   * the writer writes it, leave the document as it was.
   */
  lemma CanonicalUnchanged(t: string, ds: seq<Entry>, compat: bool)
    requires Ordered(ds) && SpansDisjoint(ds)
    requires forall k :: 0 <= k < |ds| ==> Canonical(t, ds[k], compat)
    ensures Arranged(Plan(ds, compat), |t|) && Rewritten(t, Plan(ds, compat)) == t
  {
    var es := Plan(ds, compat);
    PlanIsPlanned(ds, compat);
    forall k | 0 <= k < |ds| ensures Fits(ds[k].span, |t|) && es[k] == EditOf(ds[k], compat) {
      CanonicalEdit(t, ds[k], compat);
    }
    OrderedIsArranged(ds, |t|, es);
    forall k | 0 <= k < |es|
      ensures es[k].span.Some? ==> EndOf(es[k]) <= |t| && es[k].line == t[es[k].span.value.index..EndOf(es[k])]
      ensures es[k].span.None? ==> es[k].line == ""
    {
      CanonicalEdit(t, ds[k], compat);
    }
    RewrittenUnchanged(t, es);
  }

  /**
   * Directives whose lines are written the way the writer writes them, disjoint, are
   * written back by the writer's sort and plan to the very same document.
   */
  lemma ReadThenWriteUnchanged(os: seq<MagicComment>, t: string, compat: bool)
    requires Distinct(os) && SpansDisjoint(Entries(os))
    requires forall k :: 0 <= k < |os| ==> Canonical(t, EntryOf(os[k]), compat)
    ensures Arranged(Plan(Entries(SortedForWriting(os)), compat), |t|)
    ensures Rewritten(t, Plan(Entries(SortedForWriting(os)), compat)) == t
  {
    var es := Entries(os);
    assert SpansFit(es, |t|) by {
      forall k | 0 <= k < |es| ensures Fits(es[k].span, |t|) {
        CanonicalEdit(t, EntryOf(os[k]), compat);
      }
    }
    SortKeeps(os, |t|);
    var r := SortedForWriting(os);
    var ds := Entries(r);
    forall k | 0 <= k < |ds| ensures Canonical(t, ds[k], compat) {
      assert r[k] in os;
      var k' :| 0 <= k' < |os| && os[k'] == r[k];
      assert ds[k] == EntryOf(os[k']);
    }
    CanonicalUnchanged(t, ds, compat);
  }

  // ---------------------------------------------------------------------------------------
  // The script's state

  class Session {
    /** `TeXShopCompatibility`. */
    var compat: bool
    /** The text of the target document. */
    var text: string
    /** The `magicComments` array. */
    var directives: seq<MagicComment>

    ghost predicate Valid()
      reads this, directives
    {
      |directives| == |Registry| && Distinct(directives) &&
      (forall k :: 0 <= k < |directives| ==> directives[k].regex == PatternOf(directives[k].kind)) &&
      forall o :: o in directives ==> o.kind != Program ==> !o.isTeXShopSyntax
    }

    /** The script's start: the four directives in registry order, nothing read, compatibility off. */
    constructor (text: string)
      ensures Valid() && this.text == text && !compat
      ensures forall k :: 0 <= k < |directives| ==>
        directives[k].kind == Registry[k] && directives[k].regex == PatternOf(Registry[k]) &&
        directives[k].value == "" && !directives[k].isTeXShopSyntax && directives[k].span == None
      ensures forall k :: 0 <= k < |directives| ==> fresh(directives[k])
    {
      var e := new MagicComment(Encoding);
      var p := new MagicComment(Program);
      var r := new MagicComment(Root);
      var s := new MagicComment(Spellcheck);
      this.text := text;
      compat := false;
      directives := [e, p, r, s];
    }

    /** The reader's work on one directive, given what its pattern found: a match is taken, a `TS-` form switches compatibility on. */
    method ReadDirective(o: MagicComment, m: Option<Match>)
      requires o.kind != Program ==> !o.isTeXShopSyntax
      modifies this, o
      ensures text == old(text) && directives == old(directives)
      ensures o.kind != Program ==> !o.isTeXShopSyntax
      ensures o.value == ReadValue(m, old(o.value)) && o.span == ReadSpan(m, old(o.span))
      ensures compat == (old(compat) || LegacyMatch(o.kind, m))
    {
      if m.Some? {
        o.FromCommentString(m.value);
        if o.isTeXShopSyntax {
          compat := true;
        }
      }
    }

    /** The directive's pattern run over `header`, then the reader's work on what it found. */
    method SearchAndRead(o: MagicComment, header: string, ghost ps: seq<Pattern>, ghost ds: seq<Entry>,
                         ghost ms: seq<Option<Match>>, ghost vs: seq<string>, ghost ss: seq<Option<Span>>, ghost ls: seq<bool>,
                         ghost i: nat)
      requires ReadPlanned(ps, ds, header, ms, vs, ss, ls) && i < |ds|
      requires o.regex == ps[i] && o.kind == ds[i].kind && o.value == ds[i].value && o.span == ds[i].span
      requires o.kind != Program ==> !o.isTeXShopSyntax
      modifies this, o
      ensures text == old(text) && directives == old(directives)
      ensures o.kind != Program ==> !o.isTeXShopSyntax
      ensures o.value == vs[i] && o.span == ss[i] && compat == (old(compat) || ls[i])
    {
      var m := Exec(header, o.regex);
      assert m == ms[i];
      ReadDirective(o, m);
    }

    /** `ReadMagicCommentsFromDocument`. */
    method Read()
      requires Valid()
      modifies this, directives
      ensures Valid() && directives == old(directives) && text == old(text)
      ensures forall k :: 0 <= k < |directives| ==>
        var r := Exec(Header(text), directives[k].regex);
        directives[k].value == ReadValue(r, old(directives[k].value)) && directives[k].span == ReadSpan(r, old(directives[k].span))
      ensures compat == (old(compat) ||
        exists k :: 0 <= k < |directives| && LegacyMatch(directives[k].kind, Exec(Header(text), directives[k].regex)))
    {
      var header := Header(text);
      var os := directives;
      ghost var ds := Entries(os);
      ghost var ps := seq(|os|, k requires 0 <= k < |os| => os[k].regex);
      ghost var ms := seq(|os|, k requires 0 <= k < |os| => Exec(header, ps[k]));
      ghost var vs := seq(|os|, k requires 0 <= k < |os| => ReadValue(ms[k], ds[k].value));
      ghost var ss := seq(|os|, k requires 0 <= k < |os| => ReadSpan(ms[k], ds[k].span));
      ghost var ls := seq(|os|, k requires 0 <= k < |os| => LegacyMatch(ds[k].kind, ms[k]));
      ReadEach(header, ps, ds, ms, vs, ss, ls);
    }

    /** `Read` on directives that hold nothing yet, stated per registry kind. */
    method ReadUnset()
      requires Valid() && !compat
      requires forall k :: 0 <= k < |directives| ==>
        directives[k].kind == Registry[k] && directives[k].value == "" && directives[k].span == None
      modifies this, directives
      ensures Valid() && directives == old(directives) && text == old(text)
      ensures forall k :: 0 <= k < |Registry| ==> EntryOf(directives[k]) == ReadEntry(text, Registry[k])
      ensures compat == ReadCompat(text)
    {
      Read();
      ReadEntriesAre(text, compat, directives);
    }

    /**
     * The reader's `forEach`: every directive searched for in `header`, as `ReadPlanned` says;
     * each takes its value and place, and a `TS-` form switches compatibility on.
     */
    method ReadEach(header: string, ghost ps: seq<Pattern>, ghost ds: seq<Entry>,
                    ghost ms: seq<Option<Match>>, ghost vs: seq<string>, ghost ss: seq<Option<Span>>, ghost ls: seq<bool>)
      requires Valid() && ReadPlanned(ps, ds, header, ms, vs, ss, ls) && |ds| == |directives|
      requires forall k :: 0 <= k < |ds| ==>
        directives[k].regex == ps[k] && directives[k].kind == ds[k].kind &&
        directives[k].value == ds[k].value && directives[k].span == ds[k].span
      modifies this, directives
      ensures Valid() && directives == old(directives) && text == old(text)
      ensures forall k :: 0 <= k < |directives| ==> directives[k].value == vs[k] && directives[k].span == ss[k]
      ensures compat == (old(compat) || true in ls)
    {
      for i := 0 to |directives|
        invariant directives == old(directives) && text == old(text)
        invariant forall k :: 0 <= k < |directives| ==> directives[k].kind != Program ==> !directives[k].isTeXShopSyntax
        invariant forall k :: 0 <= k < i ==> directives[k].value == vs[k] && directives[k].span == ss[k]
        invariant forall k :: i <= k < |directives| ==> directives[k].value == ds[k].value && directives[k].span == ds[k].span
        invariant compat == (old(compat) || true in ls[..i])
      {
        SearchAndRead(directives[i], header, ps, ds, ms, vs, ss, ls, i);
        assert ls[..i + 1] == ls[..i] + [ls[i]];
      }
      assert ls[..|directives|] == ls;
    }

    /** The dialog's answer for one directive: a ticked entry's trimmed text, or no value. */
    method ConfirmDirective(o: MagicComment, checked: bool, shown: string)
      modifies o
      ensures o.value == if checked then ValueOfDisplay(o.kind, Trim(shown)) else ""
      ensures o.span == old(o.span) && o.isTeXShopSyntax == old(o.isTeXShopSyntax)
    {
      if checked {
        var v := o.FromDisplayValue(Trim(shown));
      } else {
        o.value := "";
      }
    }

    /** Closing the dialog: on acceptance, the switch and every directive take the dialog's answers. */
    method ApplyDialog(accepted: bool, compatChecked: bool, checked: seq<bool>, texts: seq<string>) returns (result: bool)
      requires Valid() && |checked| == |directives| && |texts| == |directives|
      modifies this, directives
      ensures Valid() && result == accepted && directives == old(directives) && text == old(text)
      ensures compat == (if accepted then compatChecked else old(compat))
      ensures forall k :: 0 <= k < |directives| ==>
        directives[k].span == old(directives[k].span) && directives[k].isTeXShopSyntax == old(directives[k].isTeXShopSyntax)
      ensures forall k :: 0 <= k < |directives| ==>
        directives[k].value ==
          if !accepted then old(directives[k].value)
          else if checked[k] then ValueOfDisplay(directives[k].kind, Trim(texts[k]))
          else ""
    {
      result := accepted;
      if !accepted {
        return;
      }
      compat := compatChecked;
      ConfirmEach(checked, texts);
    }

    /** The dialog's `forEach`: every directive takes its answer by `ConfirmDirective`. */
    method ConfirmEach(checked: seq<bool>, texts: seq<string>)
      requires Distinct(directives) && |checked| == |directives| && |texts| == |directives|
      modifies directives
      ensures forall k :: 0 <= k < |directives| ==>
        directives[k].isTeXShopSyntax == old(directives[k].isTeXShopSyntax) && directives[k].span == old(directives[k].span)
      ensures forall k :: 0 <= k < |directives| ==>
        directives[k].value == if checked[k] then ValueOfDisplay(directives[k].kind, Trim(texts[k])) else ""
    {
      for i := 0 to |directives|
        invariant forall k :: 0 <= k < |directives| ==>
          directives[k].isTeXShopSyntax == old(directives[k].isTeXShopSyntax) && directives[k].span == old(directives[k].span)
        invariant forall k :: 0 <= k < i ==>
          directives[k].value == if checked[k] then ValueOfDisplay(directives[k].kind, Trim(texts[k])) else ""
      {
        var o := directives[i];
        assert forall k :: 0 <= k < |directives| && k != i ==> directives[k] != o;
        ConfirmDirective(o, checked[i], texts[i]);
      }
    }

    /** The editor's replacement of a selection, skipped when the text would not change. */
    method ReplaceSelection(start: nat, length: nat, rep: string)
      requires start + length <= |text|
      modifies this
      ensures text == old(text[..start]) + rep + old(text[start + length..])
      ensures compat == old(compat) && directives == old(directives)
    {
      var selection := text[start..start + length];
      if rep != selection {
        text := text[..start] + rep + text[start + length..];
      } else {
        SkippedEditIsApplied(text, start, length);
      }
    }

    /** One edit applied the way the writer applies it, through the editor's selection. */
    method ApplyEdit(e: Edit, offset: int, last: nat) returns (offset': int, last': nat)
      requires Applicable(Cursor(text, offset, last), e)
      modifies this
      ensures directives == old(directives) && compat == old(compat)
      ensures Cursor(text, offset', last') == Advance(Cursor(old(text), offset, last), e)
    {
      if e.span.Some? {
        var sp := e.span.value;
        ReplaceSelection(sp.index + offset, sp.length, e.line);
        offset', last' := offset + |e.line| - sp.length, sp.index + offset + |e.line|;
      } else {
        ReplaceSelection(last, 0, e.line);
        offset', last' := offset, last + |e.line|;
      }
    }

    /**
     * The writer's work on one directive: a found line is replaced at its index moved by
     * `offset`, a new one is inserted at `last`, and a directive with nothing to write is
     * passed over; the accumulators move on.
     */
    method WriteDirective(o: MagicComment, offset: int, last: nat,
                          ghost t: string, ghost ds: seq<Entry>, ghost c: bool, ghost plan: seq<Edit>, ghost after: seq<string>,
                          ghost cs: seq<Cursor>, ghost i: nat)
      returns (offset': int, last': nat)
      requires Planned(ds, c, plan, after) && c == compat && Cursors(t, plan, cs)
      requires i < |ds| && o.kind == ds[i].kind && o.value == ds[i].value && o.span == ds[i].span
      requires cs[i] == Cursor(text, offset, last)
      modifies this, o
      ensures directives == old(directives) && compat == old(compat)
      ensures o.span == old(o.span) && o.isTeXShopSyntax == old(o.isTeXShopSyntax) && o.value == after[i]
      ensures cs[i + 1] == Cursor(text, offset', last')
    {
      ghost var d := ds[i];
      ghost var e := EditOf(d, c);
      assert plan[i] == e && after[i] == ValueAfterWrite(d.kind, d.value, c);
      AfterStep(t, plan, i);
      assert After(t, plan, i) == cs[i] && After(t, plan, i + 1) == cs[i + 1];
      var rep := Serialise(o);
      if o.span.Some? {
        offset', last' := ApplyEdit(Edit(o.span, rep), offset, last);
      } else if o.value != "" {
        offset', last' := ApplyEdit(Edit(None, rep), offset, last);
      } else {
        offset', last' := offset, last;
        assert text[..last] + e.line + text[last..] == text;
      }
    }

    /** `rep`: a directive with a value is serialised, which may also settle its value. */
    method Serialise(o: MagicComment) returns (rep: string)
      modifies o
      ensures rep == Replacement(o.kind, old(o.value), compat)
      ensures o.value == ValueAfterWrite(o.kind, old(o.value), compat)
      ensures o.span == old(o.span) && o.isTeXShopSyntax == old(o.isTeXShopSyntax)
    {
      rep := "";
      if o.value != "" {
        rep := o.ToCommentString(compat);
      }
    }

    /** The writer's sort: found directives first, by where their lines are. */
    method SortForWriting()
      requires Valid()
      modifies this
      ensures directives == old(SortedForWriting(directives)) && text == old(text) && compat == old(compat)
      ensures forall i :: 0 <= i < |directives| ==> directives[i] in old(directives)
      ensures Entries(directives) == old(Entries(SortedForWriting(directives)))
      ensures Valid() && forall o :: o in directives ==>
        o.value == old(o.value) && o.span == old(o.span) && o.isTeXShopSyntax == old(o.isTeXShopSyntax)
    {
      SortFacts(directives);
      directives := SortedForWriting(directives);
    }

    /** `WriteMagicCommentsToDocument`: the sort, then every directive written in that order. */
    method Write()
      requires Valid() && SpansFit(Entries(directives), |text|) && SpansDisjoint(Entries(directives))
      modifies this, directives
      ensures Valid() && compat == old(compat)
      ensures directives == old(SortedForWriting(directives))
      ensures var plan := old(Plan(Entries(SortedForWriting(directives)), compat));
        Arranged(plan, |old(text)|) && text == Rewritten(old(text), plan)
      ensures forall o :: o in directives ==>
        o.span == old(o.span) && o.isTeXShopSyntax == old(o.isTeXShopSyntax) &&
        o.value == ValueAfterWrite(o.kind, old(o.value), compat)
    {
      SortKeeps(directives, |text|);
      SortForWriting();
      WriteSorted();
    }

    /** The writing itself, on directives already in writing order. */
    method WriteSorted()
      requires Valid()
      requires Ordered(Entries(directives)) && SpansFit(Entries(directives), |text|) && SpansDisjoint(Entries(directives))
      modifies this, directives
      ensures Valid() && compat == old(compat) && directives == old(directives)
      ensures var plan := old(Plan(Entries(directives), compat));
        Arranged(plan, |old(text)|) && text == Rewritten(old(text), plan)
      ensures forall o :: o in directives ==>
        o.span == old(o.span) && o.isTeXShopSyntax == old(o.isTeXShopSyntax) &&
        o.value == ValueAfterWrite(o.kind, old(o.value), compat)
    {
      ghost var t, ds := text, Entries(directives);
      ghost var plan, after := Plan(ds, compat), Settled(ds, compat);
      PlanIsPlanned(ds, compat);
      OrderedIsArranged(ds, |t|, plan);
      ghost var cs := CursorsOf(t, plan);
      WriteEach(t, ds, compat, plan, after, cs);
      forall o | o in directives
        ensures o.span == old(o.span) && o.isTeXShopSyntax == old(o.isTeXShopSyntax) &&
                o.value == ValueAfterWrite(o.kind, old(o.value), compat)
      {
        var k :| 0 <= k < |directives| && directives[k] == o;
        assert EditOf(ds[k], compat) == plan[k];
      }
    }

    /** The writer's `forEach`: every directive, in the current order, written by `WriteDirective`. */
    method WriteEach(ghost t: string, ghost ds: seq<Entry>, ghost c: bool, ghost plan: seq<Edit>, ghost after: seq<string>,
                     ghost cs: seq<Cursor>)
      requires text == t && c == compat && Distinct(directives) && Planned(ds, c, plan, after)
      requires Cursors(t, plan, cs) && cs[0] == Cursor(t, 0, 0)
      requires |ds| == |directives| && forall k :: 0 <= k < |ds| ==>
        directives[k].kind == ds[k].kind && directives[k].value == ds[k].value && directives[k].span == ds[k].span
      modifies this, directives
      ensures directives == old(directives) && compat == c && text == cs[|plan|].text
      ensures forall k :: 0 <= k < |directives| ==>
        directives[k].span == ds[k].span && directives[k].isTeXShopSyntax == old(directives[k].isTeXShopSyntax) &&
        directives[k].value == after[k]
    {
      var offset, last := 0, 0;
      for i := 0 to |directives|
        invariant directives == old(directives) && compat == c
        invariant forall k :: 0 <= k < |directives| ==>
          directives[k].kind == ds[k].kind && directives[k].span == ds[k].span &&
          directives[k].isTeXShopSyntax == old(directives[k].isTeXShopSyntax)
        invariant forall k :: 0 <= k < i ==> directives[k].value == after[k]
        invariant forall k :: i <= k < |directives| ==> directives[k].value == ds[k].value
        invariant cs[i] == Cursor(text, offset, last)
      {
        offset, last := WriteDirective(directives[i], offset, last, t, ds, c, plan, after, cs, i);
      }
    }
  }

  /** Putting the selected text back in its place leaves the text as it is. */
  lemma SkippedEditIsApplied(t: string, start: nat, length: nat)
    requires start + length <= |t|
    ensures t[..start] + t[start..start + length] + t[start + length..] == t
  {
  }

  /** Fresh directives in registry order, each read with its own pattern, hold `ReadEntry`, and the reader's compatibility is `ReadCompat`. */
  lemma ReadEntriesAre(t: string, compat: bool, os: seq<MagicComment>)
    requires |os| == |Registry| && forall k :: 0 <= k < |os| ==> os[k].kind == Registry[k] && os[k].regex == PatternOf(Registry[k])
    requires forall k :: 0 <= k < |os| ==>
      var r := Exec(Header(t), os[k].regex);
      os[k].value == ReadValue(r, "") && os[k].span == ReadSpan(r, None)
    requires compat == exists k :: 0 <= k < |os| && LegacyMatch(os[k].kind, Exec(Header(t), os[k].regex))
    ensures forall k :: 0 <= k < |Registry| ==> EntryOf(os[k]) == ReadEntry(t, Registry[k])
    ensures compat == ReadCompat(t)
  {
    ReadCompatIs(t, compat, os);
  }

  lemma ReadCompatIs(t: string, compat: bool, os: seq<MagicComment>)
    requires |os| == |Registry| && forall k :: 0 <= k < |os| ==> os[k].kind == Registry[k] && os[k].regex == PatternOf(Registry[k])
    requires compat == exists k :: 0 <= k < |os| && LegacyMatch(os[k].kind, Exec(Header(t), os[k].regex))
    ensures compat == ReadCompat(t)
  {
    if compat {
      var k :| 0 <= k < |os| && LegacyMatch(os[k].kind, Exec(Header(t), os[k].regex));
      assert os[k].regex == PatternOf(Program);
    } else {
      assert os[1].kind == Program;
    }
  }

  /** A fresh session for `t` after reading: the entries and the switch the reader produces. */
  method ReadFresh(t: string) returns (s: Session)
    ensures fresh(s) && (forall k :: 0 <= k < |s.directives| ==> fresh(s.directives[k]))
    ensures s.Valid() && s.text == t
    ensures forall k :: 0 <= k < |Registry| ==> EntryOf(s.directives[k]) == ReadEntry(t, Registry[k])
    ensures s.compat == ReadCompat(t)
  {
    s := new Session(t);
    s.ReadUnset();
  }

  /**
   * Read, then written: directives holding what the reader takes from a header in the
   * writer's form, with no two lines overlapping, are written back by the writer's sort and
   * plan to the very same document.
   */
  lemma ReadHeaderWritesBack(os: seq<MagicComment>, t: string)
    requires Distinct(os) && |os| == |Registry|
    requires forall k :: 0 <= k < |Registry| ==> EntryOf(os[k]) == ReadEntry(t, Registry[k])
    requires forall k :: 0 <= k < |Registry| ==> CanonicalHeader(t, Registry[k], ReadCompat(t))
    requires SpansDisjoint(ReadEntries(t))
    ensures SpansFit(Entries(os), |t|) && SpansDisjoint(Entries(os))
    ensures Arranged(Plan(Entries(SortedForWriting(os)), ReadCompat(t)), |t|)
    ensures Rewritten(t, Plan(Entries(SortedForWriting(os)), ReadCompat(t))) == t
  {
    var compat := ReadCompat(t);
    var es := Entries(os);
    assert es == ReadEntries(t);
    forall k | 0 <= k < |os| ensures Canonical(t, EntryOf(os[k]), compat) && Fits(es[k].span, |t|) {
      ReadIsCanonical(t, Registry[k], compat);
      CanonicalEdit(t, EntryOf(os[k]), compat);
    }
    ReadThenWriteUnchanged(os, t, compat);
  }

  /**
   * A document whose header holds, for each directive, either no line or the writer's line
   * for a canonical value, with no two lines overlapping, comes back unchanged from a fresh
   * session's read and write.
   */
  method ReadThenWrite(t: string) returns (s: Session)
    requires forall k :: 0 <= k < |Registry| ==> CanonicalHeader(t, Registry[k], ReadCompat(t))
    requires SpansDisjoint(ReadEntries(t))
    ensures s.text == t
  {
    s := ReadFresh(t);
    ReadHeaderWritesBack(s.directives, t);
    s.Write();
  }
}

=== FILE: strings.dfy ===
/** The small optional-value datatype used for JavaScript's `null`/`undefined` results. */
module Wrappers {
  datatype Option<T> = None | Some(value: T)
}

/**
 * String primitives the script takes from JavaScript: `trim`, `toLowerCase`,
 * `indexOf(..) >= 0`, `replace(/../g, ..)`, `join` and the `.` / `\s` regex classes.
 * Case folding and white space are the ASCII ones.
 */
module Strings {

  /** Characters JavaScript's regex `.` refuses: the four line terminators. */
  predicate IsLineTerminator(c: char)
  {
    c == '\n' || c == '\r' || c == '\U{2028}' || c == '\U{2029}'
  }

  /** ASCII white space, as removed by `trim` and matched by `\s`. */
  predicate IsSpace(c: char)
  {
    c == ' ' || c == '\t' || c == '\n' || c == '\r' || c == '\U{000B}' || c == '\U{000C}'
  }

  predicate NoLineTerminator(s: string)
  {
    forall i :: 0 <= i < |s| ==> !IsLineTerminator(s[i])
  }

  predicate AllSpace(s: string)
  {
    forall i :: 0 <= i < |s| ==> IsSpace(s[i])
  }

  /** Number of white-space characters at the front of `s`. */
  function LeadingSpaces(s: string): (n: nat)
    ensures n <= |s| && AllSpace(s[..n])
    ensures n < |s| ==> !IsSpace(s[n])
  {
    if s == [] || !IsSpace(s[0]) then 0
    else
      var n := 1 + LeadingSpaces(s[1..]);
      assert forall i :: 1 <= i < n ==> s[..n][i] == s[1..][..n - 1][i - 1];
      n
  }

  /** Number of white-space characters at the end of `s`. */
  function TrailingSpaces(s: string): (n: nat)
    ensures n <= |s| && AllSpace(s[|s| - n..])
    ensures n < |s| ==> !IsSpace(s[|s| - 1 - n])
  {
    if s == [] || !IsSpace(s[|s| - 1]) then 0
    else
      var n := 1 + TrailingSpaces(s[..|s| - 1]);
      n
  }

  /** `String.prototype.trim`: drop white space at both ends. */
  function Trim(s: string): (r: string)
    ensures exists i :: 0 <= i <= |s| - |r| && r == s[i..i + |r|] && AllSpace(s[..i]) && AllSpace(s[i + |r|..])
    ensures r == [] || (!IsSpace(r[0]) && !IsSpace(r[|r| - 1]))
    ensures r == [] <==> AllSpace(s)
  {
    var lead := LeadingSpaces(s);
    if lead == |s| then
      assert s[..lead] == s && s[lead..] == [];
      []
    else
      var trail := TrailingSpaces(s);
      assert trail < |s| - lead;
      var r := s[lead..|s| - trail];
      assert s[lead + |r|..] == s[|s| - trail..];
      assert r[0] == s[lead] && r[|r| - 1] == s[|s| - 1 - trail];
      assert !AllSpace(s) by { assert !IsSpace(s[lead]); }
      r
  }

  /** A string with nothing to trim at either end is its own trimmed form. */
  lemma TrimOfTrimmed(s: string)
    requires s == [] || (!IsSpace(s[0]) && !IsSpace(s[|s| - 1]))
    ensures Trim(s) == s
  {
    if s != [] {
      assert LeadingSpaces(s) == 0 && TrailingSpaces(s) == 0;
      assert s[0..|s|] == s;
    }
  }

  /** Trimming takes a piece of the string, so it adds no line terminator. */
  lemma TrimKeepsOneLine(s: string)
    requires NoLineTerminator(s)
    ensures NoLineTerminator(Trim(s))
  {
    var r := Trim(s);
    var i :| 0 <= i <= |s| - |r| && r == s[i..i + |r|] && AllSpace(s[..i]) && AllSpace(s[i + |r|..]);
    forall k | 0 <= k < |r| ensures !IsLineTerminator(r[k]) {
      assert r[k] == s[i + k];
    }
  }

  /** ASCII lower case, what `toLowerCase` does to ASCII letters. */
  function LowerChar(c: char): (d: char)
    ensures 'A' <= c <= 'Z' ==> d as int == c as int + 32
    ensures !('A' <= c <= 'Z') ==> d == c
  {
    if 'A' <= c <= 'Z' then (c as int + 32) as char else c
  }

  function Lower(s: string): (r: string)
    ensures |r| == |s| && forall i :: 0 <= i < |s| ==> r[i] == LowerChar(s[i])
  {
    seq(|s|, i requires 0 <= i < |s| => LowerChar(s[i]))
  }

  /** `sub` occurs in `s` at position `i`. */
  predicate OccursAt(s: string, sub: string, i: int)
  {
    0 <= i && i + |sub| <= |s| && s[i..i + |sub|] == sub
  }

  /** `s.indexOf(sub) >= 0`. */
  predicate Contains(s: string, sub: string)
  {
    exists i | 0 <= i <= |s| - |sub| :: OccursAt(s, sub, i)
  }

  /** `s.toLowerCase().indexOf(sub.toLowerCase()) >= 0`. */
  predicate ContainsIgnoringCase(s: string, sub: string)
  {
    Contains(Lower(s), Lower(sub))
  }

  /**
   * `s.replace(new RegExp(pat, "g"), rep)` for a pattern without special characters and a
   * replacement without `$`: every occurrence, scanning left to right without overlap,
   * is replaced; the inserted text is not scanned again.
   */
  function ReplaceAll(s: string, pat: string, rep: string): string
    requires pat != []
    decreases |s|
  {
    if |s| < |pat| then s
    else if s[..|pat|] == pat then rep + ReplaceAll(s[|pat|..], pat, rep)
    else [s[0]] + ReplaceAll(s[1..], pat, rep)
  }

  /** A string without an occurrence of the pattern is left as it is. */
  lemma {:induction false} ReplaceAllWithoutOccurrence(s: string, pat: string, rep: string)
    requires pat != [] && !Contains(s, pat)
    ensures ReplaceAll(s, pat, rep) == s
    decreases |s|
  {
    if |s| >= |pat| {
      assert !OccursAt(s, pat, 0);
      assert !Contains(s[1..], pat) by {
        if Contains(s[1..], pat) {
          var i :| 0 <= i <= |s[1..]| - |pat| && OccursAt(s[1..], pat, i);
          assert s[i + 1..i + 1 + |pat|] == s[1..][i..i + |pat|];
          assert OccursAt(s, pat, i + 1);
        }
      }
      ReplaceAllWithoutOccurrence(s[1..], pat, rep);
      assert [s[0]] + s[1..] == s;
    }
  }

  /** `parts.join(sep)`. */
  function Join(parts: seq<string>, sep: string): (r: string)
    ensures parts == [] ==> r == []
    ensures |parts| == 1 ==> r == parts[0]
  {
    if parts == [] then []
    else if |parts| == 1 then parts[0]
    else parts[0] + sep + Join(parts[1..], sep)
  }

  /** Every character of a join comes from one of the parts or from the separator. */
  lemma {:induction false} JoinKeeps(parts: seq<string>, sep: string, ok: char -> bool)
    requires forall i :: 0 <= i < |parts| ==> forall k :: 0 <= k < |parts[i]| ==> ok(parts[i][k])
    requires forall k :: 0 <= k < |sep| ==> ok(sep[k])
    ensures forall k :: 0 <= k < |Join(parts, sep)| ==> ok(Join(parts, sep)[k])
  {
    if |parts| > 1 {
      JoinKeeps(parts[1..], sep, ok);
      var head, tail := parts[0] + sep, Join(parts[1..], sep);
      assert forall k :: 0 <= k < |parts[0]| ==> ok(parts[0][k]);
      forall k | 0 <= k < |head + tail| ensures ok((head + tail)[k]) {
        if k < |parts[0]| {
          assert (head + tail)[k] == parts[0][k];
        } else if k < |head| {
          assert (head + tail)[k] == sep[k - |parts[0]|];
        } else {
          assert (head + tail)[k] == tail[k - |head|];
        }
      }
    }
  }

  /** `list.indexOf(x)`: the first position of `x` in `s`, or -1. */
  function IndexOf<T(==)>(s: seq<T>, x: T): (r: int)
    ensures -1 <= r < |s|
    ensures r >= 0 ==> s[r] == x && x !in s[..r]
    ensures r < 0 <==> x !in s
  {
    if s == [] then -1
    else if s[0] == x then 0
    else
      var r := IndexOf(s[1..], x);
      if r < 0 then -1
      else
        assert s[..r + 1] == [s[0]] + s[1..][..r];
        r + 1
  }

  /** `s` written `n` times. */
  function Repeat(s: string, n: nat): string
  {
    if n == 0 then [] else s + Repeat(s, n - 1)
  }

  /** Concatenation of all strings of `parts`. */
  function Concat(parts: seq<string>): string
  {
    if parts == [] then [] else parts[0] + Concat(parts[1..])
  }
}
